=== FILE: README.md ===
# Boundary-condition synthesis for baram's OpenFOAM case writer

This project models how baram builds the boundary conditions of one transported field of one region, and the moving-reference-frame dictionary of that region.

The omega and nuTilda builders first decide whether their field exists under the active turbulence model. The temperature builder is taken to be ungated, because its code is not part of this model. A field that exists has a uniform internal field and a boundary field built by assigning one solver entry per catalogued boundary, keyed by the boundary's name. With distinct boundary names that is one entry per boundary. When a name repeats, the last assignment wins. The entry is chosen by the boundary's physical type and then by a second setting: a specification method, the backflow flag, the wall velocity condition, the interface mode or the temperature profile.

The MRF dictionary is not gated on a model and has no boundary field. It is driven by the region's MRF cell zones and is kept once built.

Four builders are modelled:

- `OmegaField`: the k-omega specific dissipation rate `omega`.
- `NuTildaField`: the Spalart-Allmaras modified turbulent viscosity `nuTilda`, including its initial value `ratio * mu / rho`.
- `TemperatureField`: the temperature `T`. Its builder is not part of this model. Its decision table is taken from the assertions of `TestT`.
- `MRFProperties`: the moving-reference-frame dictionary. It has one entry per MRF cell zone, converts rpm to rad/s, and keeps data once it is built.

Supporting modules:

- `Wrappers`: `Option` and `Result`.
- `Text`: `split()` on Python's whitespace characters, and decimal rendering of indices.
- `Dict`: Python dictionary assignment as an insertion-ordered association list.
- `Boundary`: physical types, the settings record and the catalogue.
- `Entries`: the solver entries and the per-boundary loop shared by every field builder.

A builder that raises is modelled as a `Failure`. A physical type with no handler, where `.get(type_)` returns `None` and is then called, becomes `UnregisteredType`. An if/elif specification chain that falls through returns Python's `None`, which is stored; it is modelled as the entry `NoEntry`. The omega free-stream handler reads an unbound local in the same situation, which becomes `UnboundFreeStreamOmega`.

## Model

| member | source | states |
|---|---|---|
| Entries.EntryPairs | openfoam/boundary_conditions/omega.py:38-65 | On success, position i holds boundary i's name paired with its handler's entry. On failure, the error is that of the first boundary whose handler fails. |
| Entries.BoundaryField | openfoam/boundary_conditions/omega.py:35-67 | Building the boundary field fails exactly when some boundary's handler fails. The error is that of the first failing boundary. |
| Entries.InterfaceEntry | openfoam/boundary_conditions/omega.py:115-120 | Interface mode regionInterface takes the field's coupled-wall entry. Every other mode takes the field's periodic entry (cyclicAMI in both turbulence builders). |
| Entries.PressureOutletEntry | openfoam/boundary_conditions/omega.py:94-98 | A pressure outlet takes the field's inflow entry when `calculatedBackflow == 'true'`, and zeroGradient otherwise. The nuTilda builder's copy at nuTilda.py:111-115 is the same. |
| Entries.BoundaryFieldComplete | openfoam/boundary_conditions/nuTilda.py:54-87 | With distinct boundary names, the field has exactly one entry per boundary, keyed by its name, in catalogue order, holding that boundary's handler result. |
| Entries.BoundaryFieldFromHandler | openfoam/boundary_conditions/omega.py:38-65 | Every stored entry is the handler's result for a boundary of that name, whatever the catalogue. |
| Entries.BoundaryFieldCoversCatalogue | openfoam/boundary_conditions/omega.py:38-41 | Every catalogued boundary has a key in a built field. |
| Entries.SolverType | openfoam/boundary_conditions/nuTilda.py:94-98 | The placeholder is exactly the entry whose solver type is the empty string. `NoEntry` is exactly the entry without a type. |
| Boundary.ParseBoundaryType | openfoam/boundary_conditions/omega.py:41-65 | The table look-up returns a type stored under the given name. It returns nothing exactly when no physical type has that name. |
| Boundary.ParseTypeName | openfoam/boundary_conditions/omega.py:42-64 | Every physical type's own name finds that type, so every physical type has a handler. |
| OmegaField.Build | openfoam/boundary_conditions/omega.py:23-33 | There is no field exactly when the model is not k-omega. A built field has dimensions `[0 0 -1 0 0 0 0]`, internal field equal to the initial omega, and the per-boundary field. Failure happens exactly under k-omega when some boundary's entry fails. |
| OmegaField.InletOutletByModel | openfoam/boundary_conditions/omega.py:69-76 | K_AND_OMEGA gives inletOutlet of the dissipation rate. INTENSITY_AND_VISCOSITY_RATIO gives the viscosity-ratio entry of the ratio. An unrecognised value gives `None`. Both real entries fall back to the initial omega. |
| OmegaField.BlendedWallFunction | openfoam/boundary_conditions/omega.py:78-84 | The blended wall function is an `omegaWallFunction` with `tanh` blending whose value is the initial omega. |
| OmegaField.WallOmega | openfoam/boundary_conditions/omega.py:108-113 | The atmospheric wall function, carrying the ABL z0 and d, is returned exactly when the wall is atmospheric. Otherwise the result is the tanh-blended wall function. |
| OmegaField.FreeStreamOmega | openfoam/boundary_conditions/omega.py:100-106 | freestream of the given or back-calculated omega. Failure happens exactly for an unrecognised specification. |
| OmegaField.EntryFor | openfoam/boundary_conditions/omega.py:42-64 | The whole dispatch table, group by group. A free stream gives the free-stream handler's result. Only a free stream with an unrecognised specification fails. |
| OmegaField.BoundaryEntry | openfoam/boundary_conditions/omega.py:41-65 | A registered type name gets the dispatch-table entry of that type. An unknown type name is the missing-handler error. Failure happens exactly for that or for the free-stream case. |
| OmegaField.BuildEntriesValid | openfoam/boundary_conditions/omega.py:42-120 | Every entry of a built omega field is one the table can produce. Every fallback value in it equals the initial omega. |
| OmegaField.InterfaceReduction | openfoam/boundary_conditions/omega.py:115-120 | regionInterface gives the same entry as thermoCoupledWall. Every other interface mode gives cyclicAMI. |
| OmegaField.AblInletIgnoresSpecification | openfoam/boundary_conditions/omega.py:46 | The ABL inlet entry is the K_AND_OMEGA inletOutlet whatever specification is stored. |
| NuTildaField.StatePressure | openfoam/boundary_conditions/nuTilda.py:23-24 | The pressure of the initial state is the initial gauge pressure plus the operating pressure: taking away either one leaves the other. |
| NuTildaField.InitialNuTilda | openfoam/boundary_conditions/nuTilda.py:23-38 | A solid material fails the phase assertion. A zero density fails the division. Otherwise the value times rho equals the ratio times mu. Both are evaluated at the initial temperature and at initial plus operating pressure. |
| NuTildaField.InitialNuTildaNonNegative | openfoam/boundary_conditions/nuTilda.py:32-38 | A non-negative ratio and viscosity and a positive density give a non-negative initial value. |
| NuTildaField.FixedValueByModel | openfoam/boundary_conditions/nuTilda.py:89-98 | MODIFIED_TURBULENT_VISCOSITY gives fixedValue of the given value. TURBULENT_VISCOSITY_RATIO gives the placeholder. Anything else gives `None`. |
| NuTildaField.InletOutletByModel | openfoam/boundary_conditions/nuTilda.py:100-109 | MODIFIED_TURBULENT_VISCOSITY gives inletOutlet of the given value with the initial value as fallback. TURBULENT_VISCOSITY_RATIO gives the placeholder. Anything else gives `None`. |
| NuTildaField.EntryFor | openfoam/boundary_conditions/nuTilda.py:61-85 | The whole dispatch table, group by group. The ABL inlet is `None`, and the five zero-gradient types are listed. |
| NuTildaField.BoundaryEntry | openfoam/boundary_conditions/nuTilda.py:61-85 | A registered type name gets the dispatch-table entry of that type. Failure happens exactly for a type name with no handler. |
| NuTildaField.BuildAt | openfoam/boundary_conditions/nuTilda.py:42-52 | There is a field only under Spalart-Allmaras, with dimensions `[0 2 -1 0 0 0 0]` and internal field equal to the initial value. Failure happens exactly for an unknown type name. |
| NuTildaField.Build | openfoam/boundary_conditions/nuTilda.py:17-52 | The initial value is derived before the model gate, so its failure (solid region or zero density) is the build's failure under every model. Otherwise there is a field exactly under Spalart-Allmaras, at the derived initial value. |
| NuTildaField.PlaceholderExactly | openfoam/boundary_conditions/nuTilda.py:94-98 | The placeholder appears exactly on the specification-dependent inflow boundaries under TURBULENT_VISCOSITY_RATIO. |
| NuTildaField.InterfaceReduction | openfoam/boundary_conditions/nuTilda.py:117-122 | regionInterface gives the thermoCoupledWall entry (zeroGradient). Every other mode gives cyclicAMI. |
| NuTildaField.EntryForValid | openfoam/boundary_conditions/nuTilda.py:61-85 | Every table entry is a nuTilda entry whose inletOutlet falls back to the initial value. |
| NuTildaField.BuildEntriesValid | openfoam/boundary_conditions/nuTilda.py:42-87 | The same holds for every entry of a built field, relative to its internal field. |
| TemperatureField.KappaMethod | test/test_openfoam/test_t.py:156-162 | The result is `solidThermo` exactly for a solid region and `fluidThermo` otherwise. |
| TemperatureField.ConstantEntry | test/test_openfoam/test_t.py:25-238 | The constant-profile table, group by group: fixedValue, inletOutletTotalTemperature, zeroGradient, coupled baffle, interface, compressible entries with copied parameters, porous baffle and the namesake entries. Failure happens exactly for the three types the tests do not cover. |
| TemperatureField.ProfileEntry | test/test_openfoam/test_t.py:240-266 | spatialDistribution gives timeVaryingMappedFixedValue. A polynomial temporal profile gives uniformFixedValue of the coefficient table of the split value list. A piecewise-linear one gives uniformFixedValue of the table pairing the split times with the split values. Failure happens exactly when a piecewise-linear table has fewer values than times. |
| TemperatureField.ProfileTableColumns | test/test_openfoam/test_t.py:248-266 | A built polynomial table holds every value once, under pairwise distinct names. A built piecewise-linear table's time column is the time list and its value column is the value list cut to that length. |
| TemperatureField.BoundaryEntry | test/test_openfoam/test_t.py:26-266 | A non-constant profile decides the entry alone. A constant profile dispatches on the looked-up physical type, and an unknown name fails. |
| TemperatureField.Build | test/test_openfoam/test_t.py:9-34 | The field has dimensions `[0 0 0 1 0 0 0]` and internal field equal to the initial temperature. Failure happens exactly when some boundary fails. |
| TemperatureField.PiecewiseLinearTable | test/test_openfoam/test_t.py:252-255 | A table exists exactly when there are at least as many values as times. |
| TemperatureField.PolynomialTable | test/test_openfoam/test_t.py:265 | Row i is the coefficient name `a<i>` paired with value i, for every value. |
| TemperatureField.PiecewiseLinearColumns | test/test_openfoam/test_t.py:252-255 | The table's time column is the time list. Its value column is the value list cut to the number of times. |
| TemperatureField.PolynomialNamesDistinct | test/test_openfoam/test_t.py:262-266 | The coefficient names `a0, a1, …` are pairwise distinct. The value column is the whole value list. |
| TemperatureField.ProfileSolverTypes | test/test_openfoam/test_t.py:240-266 | Whatever the physical type, a spatial profile gives solver type `timeVaryingMappedFixedValue`, and a built temporal profile gives `uniformFixedValue`. |
| TemperatureField.InterfaceReduction | test/test_openfoam/test_t.py:170-202 | regionInterface gives the thermoCoupledWall entry. The other modes give cyclicAMI. |
| TemperatureField.BuildEntriesValid | test/test_openfoam/test_t.py:26-266 | Every entry of a built temperature field is a temperature entry. Each inletOutletTotalTemperature has equal inlet and total values, and each coupled baffle uses the region phase's kappa method. |
| MRFProperties.Build | openfoam/constant/MRF_properties.py:16-40 | Cached data is returned unchanged. With no MRF zone there is no data. A fresh build has distinct keys. |
| MRFProperties.ZonePairs | openfoam/constant/MRF_properties.py:26-38 | The loop's assignments, one per zone in zone order: zone i assigns its own entry under the key `MRFCellZone_<name>`. |
| MRFProperties.BuildIdempotent | openfoam/constant/MRF_properties.py:17-23 | Building again returns what the first build returned exactly when the first build produced data or the second call finds no zone either. A first build without zones caches nothing. |
| MRFProperties.BuildOneEntryPerZone | openfoam/constant/MRF_properties.py:26-38 | With distinct zone names there is one entry per zone, in order. Each is keyed `MRFCellZone_<name>`, has cellZone = name and active = `yes`, copies origin and axis, takes its patches from the split list, and has omega * 60 = rpm * 2 * 3.141592. |
| MRFProperties.ZoneEntry | openfoam/constant/MRF_properties.py:31-38 | A zone's entry is active and named after the zone. It copies origin and axis, lists the boundary names of the split static-boundary ids in order, and has omega * 60 = rpm * 2 * 3.141592. |
| MRFProperties.PatchNames | openfoam/constant/MRF_properties.py:29-34 | There is one patch name per split id, and name i is the boundary name of id i. |
| MRFProperties.ZoneKey | openfoam/constant/MRF_properties.py:31 | The key is `MRFCellZone_` followed by the zone name, which can be read back from it. |
| MRFProperties.BuildLastZoneWins | openfoam/constant/MRF_properties.py:31 | Looking up a zone's key gives the entry of the last zone of that name. |
| MRFProperties.PatchNamesOfJoined | openfoam/constant/MRF_properties.py:29-34 | A space-joined id list gives the patch names of those ids, in order and one for one. |
| MRFProperties.RpmToRadPerSecond | openfoam/constant/MRF_properties.py:37 | A positive speed gives a positive angular velocity, and zero gives zero. |
| MRFProperties.RpmRoundTrip | openfoam/constant/MRF_properties.py:37 | The conversion and its inverse undo each other in both directions. |
| MRFProperties.RpmMonotonic | openfoam/constant/MRF_properties.py:37 | The conversion is strictly increasing. |
| Text.Split | openfoam/constant/MRF_properties.py:29 | Every token is non-empty and contains no whitespace. |
| Text.SplitOfLayout | openfoam/constant/MRF_properties.py:29 | Tokens surrounded by separator runs of any length and kind, with non-empty runs between tokens and any runs at either end, split back into exactly those tokens. |
| Text.Separators | openfoam/constant/MRF_properties.py:29 | Every string is such a layout of its own split: the separator runs it returns surround the tokens and rebuild the string. |
| Text.SplitCharacterised | openfoam/constant/MRF_properties.py:29 | `split()` returns a token list exactly when the string is a layout of those tokens, so tokens are the maximal runs of non-separators. |
| Text.SplitJoinRoundTrip | openfoam/constant/MRF_properties.py:29 | `split()` of a single-space join of non-empty, space-free tokens gives the tokens back. |
| Text.SplitKeepsContent | openfoam/constant/MRF_properties.py:29 | Splitting loses nothing but whitespace. |
| Text.NatToDecimal | test/test_openfoam/test_t.py:265 | The rendering of `i` is a non-empty digit string with no leading zero. |
| Text.DecimalCanonical | test/test_openfoam/test_t.py:265 | A digit string with no leading zero is the rendering of the number it denotes, so `str(i)` is the only such string for `i`. |
| Text.DecimalRoundTrip | test/test_openfoam/test_t.py:265 | The rendered index `i` in `f'a{i}'` reads back as `i`. |
| Dict.Put | openfoam/boundary_conditions/omega.py:41 | `field[name] = v` overwrites an existing key in place and keeps every other entry. A new key is appended at the end. Keys stay distinct. |
| Dict.FromPairs | openfoam/boundary_conditions/omega.py:38-41 | The dictionary built by the assignment loop has distinct keys. |
| Dict.FromPairsMembers | openfoam/boundary_conditions/omega.py:41 | A key-value pair is in the dictionary exactly when it is the last assignment to that key. |
| Dict.FromPairsLookup | openfoam/boundary_conditions/omega.py:41 | After the assignments `field[name] = …`, a key holds the value of its last assignment. A key never assigned is absent. |
| Dict.FromPairsOfUniqueKeys | openfoam/boundary_conditions/nuTilda.py:58-61 | Assignments to distinct keys build exactly the list of assignments in order. |

## Left out

- The CoolProp density and viscosity calls are parameters (`PropertyProvider`). They are uninterpreted real functions of the fluid name, temperature and pressure. A zero density is the division error, and the provider's own errors are not modelled.
- The base-class helpers are outside this model. This covers `_constructInletOutlet`, `_constructFreestream`, `_constructNEXTViscosityRatioInletOutletTDR`, `_constructZeroGradient` and the others. They appear as constructors of `Entry`, with the parameters the handlers pass them. `_constructFreestream` is one helper, but it becomes two constructors. `Freestream(real)` holds the omega value it gets at omega.py:106. `FreestreamFromStream(Vector3)` holds the boundary's free-stream settings, because nuTilda.py:70 passes it a configuration path rather than a value.
- `_calculateFreeStreamKW` is a parameter of the omega context. It is the free-stream k and omega back-calculation.
- The configuration store and its XPath look-ups are replaced by explicit records: the `BoundaryConfig` of each boundary, and the initial values and the model passed in. String settings with more values than the ones the builders compare against become enums with an "other" constructor.
- Writing the dictionary files, `asDict()` and the `('uniform', x)` rendering are left out. A field keeps the bare value.
- Floating point is modelled with exact reals. `float()` parsing and rounding are not modelled.
- `openfoam/boundary_conditions/t.py` is not part of this model. Its table is the one the tests assert, and several points are inferred rather than read from the code:
  - the profile is checked before the physical type, because the profile tests use a wall boundary and expect profile entries;
  - the builder is assumed not to be gated on a model;
  - the polynomial table is read from the piecewise-linear value list, as the test reads it;
  - the mass-flow-rate and pressure inlets are given `inletValue` equal to `T0`, the constant temperature. test_t.py:53-56 and 63-66 assert only `T0`;
  - `Failure(ValueListTooShort)` for a piecewise-linear table with fewer values than times comes from the test's own comprehension at test_t.py:255, which indexes `v[i]` for every time. What the builder does there is not known.
- TemperatureField.ConstantEntry: the ABL inlet, open-channel inlet and open-channel outlet have no asserted temperature entry. The model reports `TemperatureNotModelled` for them rather than guessing one.
- TemperatureField.ConstantEntry: walls give zeroGradient whatever their velocity condition. The tests cover only the no-slip wall, and wall temperature settings beyond that are not modelled.
- The stored names `ablInlet`, `openChannelInlet` and `openChannelOutlet` follow the camelCase of the other type names. They do not appear in the modelled files.
- The case assembler that runs the builders, the GUI, the VTK loader, the operating-conditions file and the string-constant module are outside this model.
- The omega dispatch table lists 23 physical types.
- Entries.SolverType: two type keywords are assumed, `inletOutlet` and `viscosityRatioInletOutletTDR`. They belong to the base-class helpers `_constructInletOutlet` and `_constructNEXTViscosityRatioInletOutletTDR`, and neither the modelled files nor `TestT` spell them out. The second may carry a `NEXT::` prefix, as `NEXT::turbulentTemperatureCoupledBaffleMixed` does. Every other keyword is written in omega.py or asserted by `TestT`. No contract besides `SolverType`'s own depends on the two assumed keywords.

=== FILE: boundary.dfy ===
/**
 * The boundary catalogue of a region: each boundary's identifier, name and
 * physical type, and the per-boundary settings the field builders read from
 * the case configuration (one record instead of path look-ups).
 */
module Boundary {
  import opened Wrappers

  /** The physical types a boundary can be given, one per entry of the builders' dispatch tables. */
  datatype BoundaryType =
    | VelocityInlet | FlowRateInlet | PressureInlet | PressureOutlet | AblInlet
    | OpenChannelInlet | OpenChannelOutlet | Outflow | FreeStream | FarFieldRiemann
    | SubsonicInflow | SubsonicOutflow | SupersonicInflow | SupersonicOutflow
    | Wall | ThermoCoupledWall | Symmetry | Interface | PorousJump | Fan
    | Empty | Cyclic | Wedge

  /** The name under which the configuration stores a physical type. */
  function TypeName(t: BoundaryType): string {
    match t
    case VelocityInlet => "velocityInlet"
    case FlowRateInlet => "flowRateInlet"
    case PressureInlet => "pressureInlet"
    case PressureOutlet => "pressureOutlet"
    case AblInlet => "ablInlet"
    case OpenChannelInlet => "openChannelInlet"
    case OpenChannelOutlet => "openChannelOutlet"
    case Outflow => "outflow"
    case FreeStream => "freeStream"
    case FarFieldRiemann => "farFieldRiemann"
    case SubsonicInflow => "subsonicInflow"
    case SubsonicOutflow => "subsonicOutflow"
    case SupersonicInflow => "supersonicInflow"
    case SupersonicOutflow => "supersonicOutflow"
    case Wall => "wall"
    case ThermoCoupledWall => "thermoCoupledWall"
    case Symmetry => "symmetry"
    case Interface => "interface"
    case PorousJump => "porousJump"
    case Fan => "fan"
    case Empty => "empty"
    case Cyclic => "cyclic"
    case Wedge => "wedge"
  }

  /** Distinct physical types are stored under distinct names. */
  lemma TypeNameInjective(a: BoundaryType, b: BoundaryType)
    ensures TypeName(a) == TypeName(b) ==> a == b
  {
  }

  /** Every physical type, in the order the dispatch tables list them. */
  const AllTypes: seq<BoundaryType> := [
    VelocityInlet, FlowRateInlet, PressureInlet, PressureOutlet, AblInlet,
    OpenChannelInlet, OpenChannelOutlet, Outflow, FreeStream, FarFieldRiemann,
    SubsonicInflow, SubsonicOutflow, SupersonicInflow, SupersonicOutflow,
    Wall, ThermoCoupledWall, Symmetry, Interface, PorousJump, Fan,
    Empty, Cyclic, Wedge]

  lemma AllTypesComplete(t: BoundaryType)
    ensures t in AllTypes
  {
  }

  /** The first of `ts` stored under name `s`. */
  function FindType(s: string, ts: seq<BoundaryType>): (r: Option<BoundaryType>)
    ensures r.Some? ==> r.value in ts && TypeName(r.value) == s
    ensures r.None? ==> forall i :: 0 <= i < |ts| ==> TypeName(ts[i]) != s
  {
    if |ts| == 0 then None
    else if TypeName(ts[0]) == s then Some(ts[0])
    else FindType(s, ts[1..])
  }

  /**
   * The dispatch-table look-up `table.get(type_)`: the physical type a stored
   * name denotes, or `None` for a name no handler is registered under.
   */
  function ParseBoundaryType(s: string): (r: Option<BoundaryType>)
    ensures r.Some? ==> TypeName(r.value) == s
    ensures r.None? <==> forall t: BoundaryType :: TypeName(t) != s
  {
    var r := FindType(s, AllTypes);
    assert r.None? ==> forall t: BoundaryType :: TypeName(t) != s by {
      if r.None? {
        forall t: BoundaryType ensures TypeName(t) != s {
          AllTypesComplete(t);
          var i :| 0 <= i < |AllTypes| && AllTypes[i] == t;
        }
      }
    }
    r
  }

  /**
   * Every physical type is registered: looking up its stored name finds it
   * again, so no physical type can reach the missing-handler error.
   */
  lemma ParseTypeName(t: BoundaryType)
    ensures ParseBoundaryType(TypeName(t)) == Some(t)
  {
    TypeNameInjective(ParseBoundaryType(TypeName(t)).value, t);
  }

  /** The secondary setting of an interface boundary. */
  datatype InterfaceMode = InternalInterface | RotationalPeriodic | TranslationalPeriodic | RegionInterface

  datatype TurbulenceModel = Inviscid | Laminar | KEpsilon | KOmega | SpalartAllmaras | LES

  datatype Phase = Solid | Liquid | Gas

  datatype Vector3 = Vector3(x: real, y: real, z: real)

  /**
   * How k-omega inflow turbulence is given. The builders test the two known
   * values with an if/elif chain; any other stored value falls through both.
   */
  datatype KOmegaSpecification = KAndOmega | IntensityAndViscosityRatio | UnrecognisedKOmegaSpecification

  datatype KOmegaSettings = KOmegaSettings(
    specification: KOmegaSpecification,
    specificDissipationRate: real,
    turbulentViscosityRatio: real)

  /** How Spalart-Allmaras inflow turbulence is given; the third value is any unrecognised one. */
  datatype SpalartAllmarasSpecification =
    ModifiedTurbulentViscosity | TurbulentViscosityRatio | UnrecognisedSpalartAllmarasSpecification

  datatype SpalartAllmarasSettings = SpalartAllmarasSettings(
    specification: SpalartAllmarasSpecification,
    modifiedTurbulentViscosity: real)

  /** The wall velocity condition; only the atmospheric wall changes a builder's decision. */
  datatype WallVelocityCondition = NoSlip | AtmosphericWall | OtherWallVelocity

  datatype FlowRateSpecification = VolumeFlowRate | MassFlowRate

  datatype TemperatureProfile = Constant | SpatialDistribution | TemporalDistribution

  datatype TemporalSpecification = PiecewiseLinear | Polynomial

  /** The temperature subtree; the time and value lists are the stored space-separated strings. */
  datatype TemperatureSettings = TemperatureSettings(
    profile: TemperatureProfile,
    constant: real,
    temporalSpecification: TemporalSpecification,
    piecewiseLinearT: string,
    piecewiseLinearV: string)

  datatype FarFieldRiemannSettings = FarFieldRiemannSettings(
    flowDirection: Vector3, machNumber: real, staticPressure: real, staticTemperature: real)

  datatype SubsonicInflowSettings = SubsonicInflowSettings(
    flowDirection: Vector3, totalPressure: real, totalTemperature: real)

  datatype PorousJumpSettings = PorousJumpSettings(
    darcyCoefficient: real, inertialCoefficient: real, porousMediaThickness: real)

  /** Everything the handlers read below one boundary's configuration path. */
  datatype BoundaryConfig = BoundaryConfig(
    kOmega: KOmegaSettings,
    spalartAllmaras: SpalartAllmarasSettings,
    calculatedBackflow: string,
    wallVelocity: WallVelocityCondition,
    interfaceMode: InterfaceMode,
    flowRateSpecification: FlowRateSpecification,
    temperature: TemperatureSettings,
    streamVelocity: Vector3,
    farFieldRiemann: FarFieldRiemannSettings,
    subsonicInflow: SubsonicInflowSettings,
    subsonicOutflowPressure: real,
    porousJump: PorousJumpSettings)

  /** One `(bcid, name, type)` triple of the catalogue, with its settings. */
  datatype Boundary = Boundary(bcid: nat, name: string, physicalType: string, config: BoundaryConfig)

  /** The boundary names, in catalogue order. */
  function Names(bs: seq<Boundary>): (ns: seq<string>)
    ensures |ns| == |bs|
    ensures forall i :: 0 <= i < |bs| ==> ns[i] == bs[i].name
  {
    seq(|bs|, i requires 0 <= i < |bs| => bs[i].name)
  }

  /** No two boundaries of the region share a name. */
  predicate UniqueNames(bs: seq<Boundary>) {
    forall i, j :: 0 <= i < j < |bs| ==> bs[i].name != bs[j].name
  }
}

=== FILE: dict.dfy ===
/**
 * Python dictionaries with string keys, as the builders fill them: `d[k] = v`
 * replaces the value of an existing key in place and appends a new key at the
 * end, so iteration follows first insertion.
 */
module Dict {
  import opened Wrappers

  /** A dictionary as its (key, value) pairs in iteration order. */
  type Assoc<V> = seq<(string, V)>

  /** Keys occur at most once. */
  predicate UniqueKeys<V>(d: Assoc<V>) {
    forall i, j :: 0 <= i < j < |d| ==> d[i].0 != d[j].0
  }

  predicate HasKey<V>(d: Assoc<V>, k: string) {
    exists i :: 0 <= i < |d| && d[i].0 == k
  }

  /** The keys in iteration order. */
  function Keys<V>(d: Assoc<V>): (ks: seq<string>)
    ensures |ks| == |d|
    ensures forall i :: 0 <= i < |d| ==> ks[i] == d[i].0
  {
    seq(|d|, i requires 0 <= i < |d| => d[i].0)
  }

  /** Position of the first pair with key `k`. */
  function IndexOf<V>(d: Assoc<V>, k: string): (i: nat)
    requires HasKey(d, k)
    ensures i < |d| && d[i].0 == k
    ensures forall j :: 0 <= j < i ==> d[j].0 != k
  {
    if d[0].0 == k then 0
    else
      assert HasKey(d[1..], k) by {
        var j :| 0 <= j < |d| && d[j].0 == k;
        assert d[1..][j - 1].0 == k;
      }
      1 + IndexOf(d[1..], k)
  }

  /** `d.get(k)`. */
  function Get<V>(d: Assoc<V>, k: string): (r: Option<V>)
    ensures r.None? <==> !HasKey(d, k)
    ensures r.Some? ==> (k, r.value) in d
  {
    if HasKey(d, k) then Some(d[IndexOf(d, k)].1) else None
  }

  /** In a dictionary without repeated keys, a stored pair is what `get` finds. */
  lemma GetOfMember<V>(d: Assoc<V>, k: string, v: V)
    requires UniqueKeys(d)
    ensures Get(d, k) == Some(v) <==> (k, v) in d
  {
    if (k, v) in d {
      var i :| 0 <= i < |d| && d[i] == (k, v);
      assert HasKey(d, k);
      var j := IndexOf(d, k);
      assert !(j < i) && !(i < j);
    }
  }

  /** `d[k] = v`: an existing key keeps its position, a new key goes last. */
  function Put<V>(d: Assoc<V>, k: string, v: V): (r: Assoc<V>)
    requires UniqueKeys(d)
    ensures UniqueKeys(r)
    ensures HasKey(d, k) ==> |r| == |d| && r[IndexOf(d, k)] == (k, v)
    ensures HasKey(d, k) ==> forall i :: 0 <= i < |d| && i != IndexOf(d, k) ==> r[i] == d[i]
    ensures !HasKey(d, k) ==> r == d + [(k, v)]
  {
    if HasKey(d, k) then d[IndexOf(d, k) := (k, v)] else d + [(k, v)]
  }

  /** The dictionary built by assigning the pairs one after another, first to last. */
  function FromPairs<V>(ps: seq<(string, V)>): (d: Assoc<V>)
    ensures UniqueKeys(d)
  {
    if |ps| == 0 then []
    else
      var last := ps[|ps| - 1];
      Put(FromPairs(ps[..|ps| - 1]), last.0, last.1)
  }

  /** `(k, v)` is the last assignment to `k` in `ps`. */
  ghost predicate LastBinding<V>(ps: seq<(string, V)>, k: string, v: V) {
    exists i :: 0 <= i < |ps| && ps[i] == (k, v) && forall j :: i < j < |ps| ==> ps[j].0 != k
  }

  lemma PutMember<V>(d: Assoc<V>, k: string, v: V, k': string, v': V)
    requires UniqueKeys(d)
    ensures (k', v') in Put(d, k, v) <==> ((k', v') in d && k' != k) || (k', v') == (k, v)
  {
    var r := Put(d, k, v);
    if HasKey(d, k) {
      var x := IndexOf(d, k);
      if (k', v') in r {
        var i :| 0 <= i < |r| && r[i] == (k', v');
        if i != x {
          assert d[i] == (k', v');
        }
      }
      if (k', v') in d && k' != k {
        var i :| 0 <= i < |d| && d[i] == (k', v');
        assert r[i] == d[i];
      }
    } else {
      if (k', v') in r {
        var i :| 0 <= i < |r| && r[i] == (k', v');
        if i < |d| {
          assert d[i] == (k', v');
        }
      }
    }
  }

  lemma PutHasKey<V>(d: Assoc<V>, k: string, v: V, k': string)
    requires UniqueKeys(d)
    ensures HasKey(Put(d, k, v), k') <==> HasKey(d, k') || k' == k
  {
    var r := Put(d, k, v);
    if HasKey(d, k) {
      var x := IndexOf(d, k);
      assert r[x].0 == k;
      if HasKey(r, k') && k' != k {
        var i :| 0 <= i < |r| && r[i].0 == k';
        assert d[i].0 == k';
      }
      if HasKey(d, k') && k' != k {
        var i :| 0 <= i < |d| && d[i].0 == k';
        assert r[i].0 == k';
      }
    } else {
      assert r[|d|].0 == k;
      if HasKey(r, k') && k' != k {
        var i :| 0 <= i < |r| && r[i].0 == k';
        assert d[i].0 == k';
      }
      if HasKey(d, k') {
        var i :| 0 <= i < |d| && d[i].0 == k';
        assert r[i].0 == k';
      }
    }
  }

  /** A stored pair is the last assignment to its key. */
  lemma {:induction false} FromPairsMemberIsLast<V>(ps: seq<(string, V)>, k: string, v: V)
    requires (k, v) in FromPairs(ps)
    ensures LastBinding(ps, k, v)
  {
    var n := |ps| - 1;
    var init := ps[..n];
    PutMember(FromPairs(init), ps[n].0, ps[n].1, k, v);
    if ps[n] != (k, v) {
      assert (k, v) in FromPairs(init) && k != ps[n].0;
      FromPairsMemberIsLast(init, k, v);
      var i :| 0 <= i < |init| && init[i] == (k, v) && forall j :: i < j < |init| ==> init[j].0 != k;
      assert ps[i] == (k, v);
      assert forall j :: i < j < |ps| ==> ps[j].0 != k;
    }
  }

  /** The last assignment to a key is stored. */
  lemma {:induction false} FromPairsLastIsMember<V>(ps: seq<(string, V)>, k: string, v: V)
    requires LastBinding(ps, k, v)
    ensures (k, v) in FromPairs(ps)
  {
    var n := |ps| - 1;
    var init := ps[..n];
    PutMember(FromPairs(init), ps[n].0, ps[n].1, k, v);
    var i :| 0 <= i < |ps| && ps[i] == (k, v) && forall j :: i < j < |ps| ==> ps[j].0 != k;
    if i < n {
      assert init[i] == (k, v);
      assert LastBinding(init, k, v);
      FromPairsLastIsMember(init, k, v);
    }
  }

  /** A pair is stored exactly when it is the last assignment to its key. */
  lemma {:induction false} FromPairsMembers<V>(ps: seq<(string, V)>, k: string, v: V)
    ensures (k, v) in FromPairs(ps) <==> LastBinding(ps, k, v)
  {
    if (k, v) in FromPairs(ps) {
      FromPairsMemberIsLast(ps, k, v);
    }
    if LastBinding(ps, k, v) {
      FromPairsLastIsMember(ps, k, v);
    }
  }

  lemma {:induction false} FromPairsKeys<V>(ps: seq<(string, V)>, k: string)
    ensures HasKey(FromPairs(ps), k) <==> exists i :: 0 <= i < |ps| && ps[i].0 == k
  {
    if |ps| > 0 {
      var n := |ps| - 1;
      var init := ps[..n];
      FromPairsKeys(init, k);
      PutHasKey(FromPairs(init), ps[n].0, ps[n].1, k);
      if exists i :: 0 <= i < |init| && init[i].0 == k {
        var i :| 0 <= i < |init| && init[i].0 == k;
        assert ps[i].0 == k;
      }
      if exists i :: 0 <= i < |ps| && ps[i].0 == k {
        var i :| 0 <= i < |ps| && ps[i].0 == k;
        if i < n {
          assert init[i].0 == k;
        }
      }
    }
  }

  /**
   * After the assignments `ps`, key `k` holds `v` exactly when the last
   * assignment to `k` was `v`; a key never assigned is absent.
   */
  lemma FromPairsLookup<V>(ps: seq<(string, V)>, k: string, v: V)
    ensures Get(FromPairs(ps), k) == Some(v) <==> LastBinding(ps, k, v)
    ensures Get(FromPairs(ps), k) == None <==> forall i :: 0 <= i < |ps| ==> ps[i].0 != k
  {
    FromPairsMembers(ps, k, v);
    FromPairsKeys(ps, k);
    GetOfMember(FromPairs(ps), k, v);
  }

  /** Every stored pair is one of the assignments. */
  lemma {:induction false} FromPairsFromInputs<V>(ps: seq<(string, V)>)
    ensures forall i :: 0 <= i < |FromPairs(ps)| ==> FromPairs(ps)[i] in ps
  {
    var d := FromPairs(ps);
    forall i | 0 <= i < |d| ensures d[i] in ps {
      FromPairsMembers(ps, d[i].0, d[i].1);
    }
  }

  /** When no key is assigned twice, the dictionary holds exactly the pairs, in their order. */
  lemma {:induction false} FromPairsOfUniqueKeys<V>(ps: seq<(string, V)>)
    requires UniqueKeys(ps)
    ensures FromPairs(ps) == ps
  {
    if |ps| > 0 {
      var n := |ps| - 1;
      var init := ps[..n];
      assert UniqueKeys(init) by {
        forall i, j | 0 <= i < j < |init| ensures init[i].0 != init[j].0 {
          assert init[i] == ps[i] && init[j] == ps[j];
        }
      }
      FromPairsOfUniqueKeys(init);
      assert !HasKey(init, ps[n].0) by {
        forall i | 0 <= i < n ensures init[i].0 != ps[n].0 {
          assert init[i] == ps[i];
        }
      }
      assert init + [ps[n]] == ps;
    }
  }
}

=== FILE: entries.dfy ===
/**
 * The solver boundary entries the field builders emit, the field
 * specification they assemble, and the one per-boundary loop every builder
 * shares: apply the field's handler to each catalogued boundary and store the
 * result under the boundary's name.
 */
module Entries {
  import opened Wrappers
  import opened Dict
  import opened Boundary

  /** One solver boundary entry; each constructor is one emitted `type` with its parameters. */
  datatype Entry =
    | ZeroGradient
    | FixedValue(value: real)
    | InletOutlet(inletValue: real, value: real)
      /** The k-omega dissipation inletOutlet derived from a turbulent viscosity ratio. */
    | ViscosityRatioInletOutletTDR(turbulentViscosityRatio: real, value: real)
    | Freestream(freestreamValue: real)
      /** A freestream entry built from the boundary's free-stream subtree (its stream velocity). */
    | FreestreamFromStream(streamVelocity: Vector3)
    | OmegaWallFunction(blending: string, value: real)
    | AtmOmegaWallFunction(z0: real, d: real, value: real)
    | InletOutletTotalTemperature(inletValue: real, t0: real)
    | FarfieldRiemann(flowDir: Vector3, mInf: real, pInf: real, tInf: real)
    | SubsonicInflowEntry(flowDir: Vector3, p0: real, t0: real)
    | SubsonicOutflowEntry(pExit: real)
    | CoupledBaffleMixed(kappaMethod: string)
    | PorousBafflePressure(d: real, i: real, length: real)
    | TimeVaryingMappedFixedValue
      /** A table of (time or coefficient name, value) rows. */
    | UniformFixedValue(table: seq<(string, string)>)
    | SymmetryEntry
    | EmptyEntry
    | WedgeEntry
    | CyclicEntry
    | CyclicAMI
      /** The `{'type': ''}` stand-in for a specification the builder does not support yet. */
    | Placeholder
      /** Python's `None` stored as the boundary's entry. */
    | NoEntry

  /** The solver `type` keyword of an entry; `None` stores no keyword at all. */
  function SolverType(e: Entry): (r: Option<string>)
    ensures r == Some("") <==> e.Placeholder?
    ensures r.None? <==> e.NoEntry?
  {
    match e
    case ZeroGradient => Some("zeroGradient")
    case FixedValue(_) => Some("fixedValue")
    case InletOutlet(_, _) => Some("inletOutlet")
    case ViscosityRatioInletOutletTDR(_, _) => Some("viscosityRatioInletOutletTDR")
    case Freestream(_) => Some("freestream")
    case FreestreamFromStream(_) => Some("freestream")
    case OmegaWallFunction(_, _) => Some("omegaWallFunction")
    case AtmOmegaWallFunction(_, _, _) => Some("atmOmegaWallFunction")
    case InletOutletTotalTemperature(_, _) => Some("inletOutletTotalTemperature")
    case FarfieldRiemann(_, _, _, _) => Some("farfieldRiemann")
    case SubsonicInflowEntry(_, _, _) => Some("subsonicInflow")
    case SubsonicOutflowEntry(_) => Some("subsonicOutflow")
    case CoupledBaffleMixed(_) => Some("NEXT::turbulentTemperatureCoupledBaffleMixed")
    case PorousBafflePressure(_, _, _) => Some("porousBafflePressure")
    case TimeVaryingMappedFixedValue => Some("timeVaryingMappedFixedValue")
    case UniformFixedValue(_) => Some("uniformFixedValue")
    case SymmetryEntry => Some("symmetry")
    case EmptyEntry => Some("empty")
    case WedgeEntry => Some("wedge")
    case CyclicEntry => Some("cyclic")
    case CyclicAMI => Some("cyclicAMI")
    case Placeholder => Some("")
    case NoEntry => None
  }

  /** Why a build aborts: the exception the builder would raise. */
  datatype BuildError =
      /** The physical type has no handler, so the table look-up yields `None`, which is then called. */
    | UnregisteredType(physicalType: string)
      /** The free-stream omega handler met an unrecognised specification and read an unbound local. */
    | UnboundFreeStreamOmega(boundary: string)
      /** The region's material is not a fluid. */
    | UnsupportedPhase
      /** The material's density at the initial state is zero, so `mu / rho` divides by zero. */
    | ZeroDensity
      /** A piecewise-linear temperature table has fewer values than times. */
    | ValueListTooShort(boundary: string)
      /** A physical type whose temperature entry is not part of this model. */
    | TemperatureNotModelled(notModelled: BoundaryType)

  /** The assembled field: `dimensions`, the uniform `internalField` and the `boundaryField` dictionary. */
  datatype FieldSpec = FieldSpec(dimensions: string, internalField: real, boundaryField: Assoc<Entry>)

  /**
   * The two-level interface dispatch shared by the builders: region-to-region
   * coupling takes the field's coupled-wall entry, every periodic or internal
   * mode takes the field's periodic entry.
   */
  function InterfaceEntry(mode: InterfaceMode, coupled: Entry, periodic: Entry): (r: Entry)
    ensures mode == RegionInterface ==> r == coupled
    ensures mode != RegionInterface ==> r == periodic
  {
    if mode == RegionInterface then coupled else periodic
  }

  /**
   * The pressure-outlet dispatch shared by the turbulence builders: when
   * backflow is computed the outlet takes the field's inflow entry, otherwise
   * zero gradient.
   */
  function PressureOutletEntry(calculatedBackflow: string, inflow: Entry): (r: Entry)
    ensures calculatedBackflow == "true" ==> r == inflow
    ensures calculatedBackflow != "true" ==> r == ZeroGradient
  {
    if calculatedBackflow == "true" then inflow else ZeroGradient
  }

  /** A field's handler: the entry of one boundary, or the error building it raises. */
  type Handler = Boundary -> Result<Entry, BuildError>

  /**
   * The boundaries' (name, entry) assignments in catalogue order, or the
   * error of the first boundary whose handler fails.
   */
  function EntryPairs(bs: seq<Boundary>, h: Handler): (r: Result<seq<(string, Entry)>, BuildError>)
    ensures r.Success? ==> |r.value| == |bs|
    ensures r.Success? ==> forall i :: 0 <= i < |bs| ==> h(bs[i]).Success? && r.value[i] == (bs[i].name, h(bs[i]).value)
    ensures r.Failure? ==>
      exists i :: 0 <= i < |bs| && h(bs[i]) == Failure(r.error) && forall j :: 0 <= j < i ==> h(bs[j]).Success?
  {
    if |bs| == 0 then Success([])
    else
      match h(bs[0])
      case Failure(e) => Failure(e)
      case Success(x) =>
        match EntryPairs(bs[1..], h)
        case Failure(e) =>
          var i :| 0 <= i < |bs| - 1 && h(bs[1..][i]) == Failure(e) && forall j :: 0 <= j < i ==> h(bs[1..][j]).Success?;
          assert h(bs[i + 1]) == Failure(e);
          assert forall j :: 0 <= j < i + 1 ==> h(bs[j]).Success? by {
            forall j | 0 <= j < i + 1 ensures h(bs[j]).Success? {
              if j > 0 {
                assert bs[j] == bs[1..][j - 1];
              }
            }
          }
          Failure(e)
        case Success(rest) => Success([(bs[0].name, x)] + rest)
  }

  /**
   * The builders' loop `for bcid, name, type_ in boundaries: field[name] =
   * handler()`: the boundary-field dictionary, or the first handler error.
   */
  function BoundaryField(bs: seq<Boundary>, h: Handler): (r: Result<Assoc<Entry>, BuildError>)
    ensures r.Failure? <==> exists i :: 0 <= i < |bs| && h(bs[i]).Failure?
    ensures r.Failure? ==>
      exists i :: 0 <= i < |bs| && h(bs[i]) == Failure(r.error) && forall j :: 0 <= j < i ==> h(bs[j]).Success?
  {
    match EntryPairs(bs, h)
    case Failure(e) => Failure(e)
    case Success(ps) => Success(FromPairs(ps))
  }

  /**
   * Completeness: over a catalogue without repeated names, a built boundary
   * field has exactly one entry per boundary, keyed by its name, in catalogue
   * order, and that entry is the handler's result for the boundary.
   */
  lemma BoundaryFieldComplete(bs: seq<Boundary>, h: Handler)
    requires UniqueNames(bs)
    requires BoundaryField(bs, h).Success?
    ensures |BoundaryField(bs, h).value| == |bs|
    ensures Keys(BoundaryField(bs, h).value) == Names(bs)
    ensures forall i :: 0 <= i < |bs| ==> BoundaryField(bs, h).value[i].1 == h(bs[i]).value
  {
    var ps := EntryPairs(bs, h).value;
    assert UniqueKeys(ps);
    FromPairsOfUniqueKeys(ps);
  }

  /**
   * Whatever the catalogue, every stored entry is the handler's result for
   * some boundary of that name; so every invariant each handler result keeps
   * holds of the whole field.
   */
  lemma BoundaryFieldFromHandler(bs: seq<Boundary>, h: Handler)
    requires BoundaryField(bs, h).Success?
    ensures forall i :: 0 <= i < |BoundaryField(bs, h).value| ==>
      exists j :: 0 <= j < |bs| && bs[j].name == BoundaryField(bs, h).value[i].0
        && h(bs[j]) == Success(BoundaryField(bs, h).value[i].1)
  {
    var ps := EntryPairs(bs, h).value;
    var d := FromPairs(ps);
    FromPairsFromInputs(ps);
    forall i | 0 <= i < |d|
      ensures exists j :: 0 <= j < |bs| && bs[j].name == d[i].0 && h(bs[j]) == Success(d[i].1)
    {
      var j :| 0 <= j < |ps| && ps[j] == d[i];
      assert bs[j].name == d[i].0 && h(bs[j]) == Success(d[i].1);
    }
  }

  /** Every boundary of the catalogue has an entry in a built field: no boundary is dropped. */
  lemma BoundaryFieldCoversCatalogue(bs: seq<Boundary>, h: Handler, i: nat)
    requires BoundaryField(bs, h).Success?
    requires i < |bs|
    ensures HasKey(BoundaryField(bs, h).value, bs[i].name)
  {
    var ps := EntryPairs(bs, h).value;
    assert ps[i].0 == bs[i].name;
    FromPairsKeys(ps, bs[i].name);
  }
}

=== FILE: mrf_properties.dfy ===
/**
 * The `MRFProperties` dictionary of a region: one moving-reference-frame
 * entry per MRF cell zone, built once and then kept.
 */
module MRFProperties {
  import opened Wrappers
  import opened Dict
  import opened Boundary
  import opened Text

  /** The truncated value of pi the conversion uses. */
  const Pi: real := 3.141592

  /** Revolutions per minute to radians per second: one revolution is `2 * Pi` radians, one minute 60 seconds. */
  function RpmToRadPerSecond(rpm: real): (w: real)
    ensures rpm > 0.0 ==> w > 0.0
    ensures rpm == 0.0 ==> w == 0.0
  {
    rpm * 2.0 * Pi / 60.0
  }

  /** The inverse conversion, radians per second to revolutions per minute. */
  function RadPerSecondToRpm(w: real): real {
    w * 60.0 / (2.0 * Pi)
  }

  /** Converting to radians per second and back recovers the rotating speed, and conversely. */
  lemma RpmRoundTrip(rpm: real, w: real)
    ensures RadPerSecondToRpm(RpmToRadPerSecond(rpm)) == rpm
    ensures RpmToRadPerSecond(RadPerSecondToRpm(w)) == w
  {
    var k := 2.0 * Pi / 60.0;
    assert RpmToRadPerSecond(rpm) == rpm * k;
    assert RadPerSecondToRpm(w) == w / k;
    assert RadPerSecondToRpm(rpm * k) == rpm * k / k;
    assert RpmToRadPerSecond(w / k) == w / k * k;
  }

  /** The conversion is strictly increasing: a faster zone gets a larger angular velocity. */
  lemma RpmMonotonic(a: real, b: real)
    requires a < b
    ensures RpmToRadPerSecond(a) < RpmToRadPerSecond(b)
  {
    assert RpmToRadPerSecond(b) - RpmToRadPerSecond(a) == RpmToRadPerSecond(b - a);
  }

  /** One MRF cell zone's settings; `staticBoundaries` is the stored space-separated list of boundary ids. */
  datatype MRFZone = MRFZone(
    name: string,
    staticBoundaries: string,
    rotationAxisOrigin: Vector3,
    rotationAxisDirection: Vector3,
    rotatingSpeed: real)

  /** One `MRFCellZone_<name>` dictionary entry. */
  datatype MRFEntry = MRFEntry(
    cellZone: string,
    active: string,
    nonRotatingPatches: seq<string>,
    origin: Vector3,
    axis: Vector3,
    omega: real)

  const KeyPrefix: string := "MRFCellZone_"

  /** The dictionary key of the zone called `name`. */
  function ZoneKey(name: string): (k: string)
    ensures |k| == |KeyPrefix| + |name|
    ensures k[..|KeyPrefix|] == KeyPrefix && k[|KeyPrefix|..] == name
  {
    KeyPrefix + name
  }

  /** Distinct zones get distinct keys. */
  lemma ZoneKeyInjective(a: string, b: string)
    ensures ZoneKey(a) == ZoneKey(b) ==> a == b
  {
    if ZoneKey(a) == ZoneKey(b) {
      assert a == ZoneKey(a)[|KeyPrefix|..];
    }
  }

  /** The boundary names of the ids listed in a whitespace-separated string. */
  function PatchNames(ids: string, boundaryName: string -> string): (names: seq<string>)
    ensures |names| == |Split(ids)|
    ensures forall i :: 0 <= i < |names| ==> names[i] == boundaryName(Split(ids)[i])
  {
    var tokens := Split(ids);
    seq(|tokens|, i requires 0 <= i < |tokens| => boundaryName(tokens[i]))
  }

  /**
   * The entry of one zone: active, named after the zone, with the zone's axis,
   * its static boundaries as non-rotating patches and its speed in radians per
   * second.
   */
  function ZoneEntry(z: MRFZone, boundaryName: string -> string): (e: MRFEntry)
    ensures e.cellZone == z.name && e.active == "yes"
    ensures e.origin == z.rotationAxisOrigin && e.axis == z.rotationAxisDirection
    ensures e.omega * 60.0 == z.rotatingSpeed * 2.0 * Pi
    ensures |e.nonRotatingPatches| == |Split(z.staticBoundaries)|
    ensures forall i :: 0 <= i < |e.nonRotatingPatches| ==>
      e.nonRotatingPatches[i] == boundaryName(Split(z.staticBoundaries)[i])
  {
    MRFEntry(z.name, "yes", PatchNames(z.staticBoundaries, boundaryName),
             z.rotationAxisOrigin, z.rotationAxisDirection, RpmToRadPerSecond(z.rotatingSpeed))
  }

  /** The zone assignments `data['MRFCellZone_' + name] = entry`, in zone order. */
  function ZonePairs(zones: seq<MRFZone>, boundaryName: string -> string): (ps: seq<(string, MRFEntry)>)
    ensures |ps| == |zones|
    ensures forall i :: 0 <= i < |zones| ==> ps[i] == (ZoneKey(zones[i].name), ZoneEntry(zones[i], boundaryName))
  {
    seq(|zones|, i requires 0 <= i < |zones| => (ZoneKey(zones[i].name), ZoneEntry(zones[i], boundaryName)))
  }

  /**
   * `build()`: data already built is kept whatever the zones now are; with no
   * MRF zone there is no data; otherwise one entry per zone.
   */
  function Build(cached: Option<Assoc<MRFEntry>>, zones: seq<MRFZone>, boundaryName: string -> string)
    : (r: Option<Assoc<MRFEntry>>)
    ensures cached.Some? ==> r == cached
    ensures cached.None? ==> (r.None? <==> |zones| == 0)
    ensures cached.None? && r.Some? ==> UniqueKeys(r.value)
  {
    if cached.Some? then cached
    else if |zones| == 0 then None
    else Some(FromPairs(ZonePairs(zones, boundaryName)))
  }

  /**
   * Building twice gives what building once gave exactly when the first build
   * produced data, whatever zones the second call sees, or the second call
   * finds no zone either: a first build that found no zone caches nothing.
   */
  lemma BuildIdempotent(cached: Option<Assoc<MRFEntry>>, zones: seq<MRFZone>, later: seq<MRFZone>,
                        boundaryName: string -> string)
    ensures Build(Build(cached, zones, boundaryName), later, boundaryName) == Build(cached, zones, boundaryName)
      <==> cached.Some? || |zones| > 0 || |later| == 0
  {
  }

  /** No two MRF zones share a name. */
  predicate UniqueZoneNames(zones: seq<MRFZone>) {
    forall i, j :: 0 <= i < j < |zones| ==> zones[i].name != zones[j].name
  }

  /**
   * With distinct zone names a fresh build has exactly one entry per zone, in
   * zone order, keyed `MRFCellZone_<name>`, whose cell zone is the zone's name,
   * which is active, whose axis and origin are the zone's and whose angular
   * velocity is the converted rotating speed.
   */
  lemma BuildOneEntryPerZone(zones: seq<MRFZone>, boundaryName: string -> string)
    requires |zones| > 0 && UniqueZoneNames(zones)
    ensures var d := Build(None, zones, boundaryName).value;
      && |d| == |zones|
      && forall i :: 0 <= i < |zones| ==>
        && d[i].0 == KeyPrefix + zones[i].name
        && d[i].1.cellZone == zones[i].name
        && d[i].1.active == "yes"
        && d[i].1.origin == zones[i].rotationAxisOrigin
        && d[i].1.axis == zones[i].rotationAxisDirection
        && d[i].1.omega * 60.0 == zones[i].rotatingSpeed * 2.0 * Pi
        && d[i].1.nonRotatingPatches == PatchNames(zones[i].staticBoundaries, boundaryName)
  {
    var ps := ZonePairs(zones, boundaryName);
    forall i, j | 0 <= i < j < |ps| ensures ps[i].0 != ps[j].0 {
      ZoneKeyInjective(zones[i].name, zones[j].name);
    }
    FromPairsOfUniqueKeys(ps);
  }

  /** Whatever the names, looking up a zone's key finds the entry of the last zone of that name. */
  lemma BuildLastZoneWins(zones: seq<MRFZone>, boundaryName: string -> string, i: nat)
    requires i < |zones|
    requires forall j :: i < j < |zones| ==> zones[j].name != zones[i].name
    ensures Get(Build(None, zones, boundaryName).value, KeyPrefix + zones[i].name)
      == Some(ZoneEntry(zones[i], boundaryName))
  {
    var ps := ZonePairs(zones, boundaryName);
    var k := KeyPrefix + zones[i].name;
    forall j | i < j < |ps| ensures ps[j].0 != k {
      ZoneKeyInjective(zones[j].name, zones[i].name);
    }
    assert LastBinding(ps, k, ZoneEntry(zones[i], boundaryName)) by {
      assert ps[i] == (k, ZoneEntry(zones[i], boundaryName));
    }
    FromPairsLookup(ps, k, ZoneEntry(zones[i], boundaryName));
  }

  /**
   * The non-rotating patches are the boundary names of the listed ids, in
   * order: a list written with single spaces is read back id for id.
   */
  lemma PatchNamesOfJoined(ids: seq<string>, boundaryName: string -> string)
    requires forall i :: 0 <= i < |ids| ==> |ids[i]| > 0 && NoSpace(ids[i])
    ensures |PatchNames(JoinSpaced(ids), boundaryName)| == |ids|
    ensures forall i :: 0 <= i < |ids| ==> PatchNames(JoinSpaced(ids), boundaryName)[i] == boundaryName(ids[i])
  {
    SplitJoinRoundTrip(ids);
  }
}

=== FILE: nu_tilda.dfy ===
/**
 * The `nuTilda` field (Spalart-Allmaras modified turbulent viscosity). Its
 * initial value is derived once, when the builder is created, from the
 * region's material at the initial state point; the field itself exists only
 * under the Spalart-Allmaras model.
 */
module NuTildaField {
  import opened Wrappers
  import opened Dict
  import opened Boundary
  import opened Entries

  const Dimensions: string := "[0 2 -1 0 0 0 0]"

  /** The region's material: its phase and its equation-of-state fluid name. */
  datatype Material = Material(phase: Phase, coolPropName: string)

  /** The case's initial values and operating pressure. */
  datatype InitialConditions = InitialConditions(
    pressure: real, temperature: real, turbulentViscosity: real, operatingPressure: real)

  /**
   * The equation-of-state provider: density and dynamic viscosity of a named
   * fluid at temperature T and absolute pressure p, in that argument order.
   */
  datatype PropertyProvider = PropertyProvider(
    density: (string, real, real) -> real,
    viscosity: (string, real, real) -> real)

  /** The absolute pressure of the initial state: gauge initial pressure plus operating pressure. */
  function StatePressure(ic: InitialConditions): (p: real)
    ensures p - ic.operatingPressure == ic.pressure
    ensures p - ic.pressure == ic.operatingPressure
  {
    ic.pressure + ic.operatingPressure
  }

  function Density(ic: InitialConditions, m: Material, props: PropertyProvider): real {
    props.density(m.coolPropName, ic.temperature, StatePressure(ic))
  }

  function Viscosity(ic: InitialConditions, m: Material, props: PropertyProvider): real {
    props.viscosity(m.coolPropName, ic.temperature, StatePressure(ic))
  }

  /**
   * The initial modified turbulent viscosity: the initial turbulent
   * viscosity ratio times the kinematic viscosity mu/rho of the material at
   * the initial state; a solid material fails the fluid-phase assertion, and
   * a zero density fails the division.
   */
  function InitialNuTilda(ic: InitialConditions, m: Material, props: PropertyProvider): (r: Result<real, BuildError>)
    ensures m.phase == Solid ==> r == Failure(UnsupportedPhase)
    ensures m.phase != Solid && Density(ic, m, props) == 0.0 ==> r == Failure(ZeroDensity)
    ensures r.Failure? <==> m.phase == Solid || Density(ic, m, props) == 0.0
    ensures r.Success? ==> r.value * Density(ic, m, props) == ic.turbulentViscosity * Viscosity(ic, m, props)
  {
    match m.phase
    case Solid => Failure(UnsupportedPhase)
    case _ =>
      var rho := Density(ic, m, props);
      if rho == 0.0 then Failure(ZeroDensity) else
      var mu := Viscosity(ic, m, props);
      var nu := mu / rho;
      Success(ic.turbulentViscosity * nu)
  }

  /** A non-negative ratio and viscosity give a non-negative initial value. */
  lemma InitialNuTildaNonNegative(ic: InitialConditions, m: Material, props: PropertyProvider)
    requires Density(ic, m, props) > 0.0
    requires ic.turbulentViscosity >= 0.0 && Viscosity(ic, m, props) >= 0.0
    requires InitialNuTilda(ic, m, props).Success?
    ensures InitialNuTilda(ic, m, props).value >= 0.0
  {
  }

  /** The fixed-value inlets: the given value, or the unsupported-ratio placeholder. */
  function FixedValueByModel(c: BoundaryConfig): (e: Entry)
    ensures e.FixedValue? <==> c.spalartAllmaras.specification == ModifiedTurbulentViscosity
    ensures e.Placeholder? <==> c.spalartAllmaras.specification == TurbulentViscosityRatio
    ensures e.NoEntry? <==> c.spalartAllmaras.specification == UnrecognisedSpalartAllmarasSpecification
    ensures e.FixedValue? ==> e.value == c.spalartAllmaras.modifiedTurbulentViscosity
  {
    match c.spalartAllmaras.specification
    case ModifiedTurbulentViscosity => FixedValue(c.spalartAllmaras.modifiedTurbulentViscosity)
    case TurbulentViscosityRatio => Placeholder
    case UnrecognisedSpalartAllmarasSpecification => NoEntry
  }

  /** The inletOutlet boundaries: the given value falling back to the initial one, or the placeholder. */
  function InletOutletByModel(initial: real, c: BoundaryConfig): (e: Entry)
    ensures e.InletOutlet? <==> c.spalartAllmaras.specification == ModifiedTurbulentViscosity
    ensures e.Placeholder? <==> c.spalartAllmaras.specification == TurbulentViscosityRatio
    ensures e.NoEntry? <==> c.spalartAllmaras.specification == UnrecognisedSpalartAllmarasSpecification
    ensures e.InletOutlet? ==> e.inletValue == c.spalartAllmaras.modifiedTurbulentViscosity && e.value == initial
  {
    match c.spalartAllmaras.specification
    case ModifiedTurbulentViscosity => InletOutlet(c.spalartAllmaras.modifiedTurbulentViscosity, initial)
    case TurbulentViscosityRatio => Placeholder
    case UnrecognisedSpalartAllmarasSpecification => NoEntry
  }

  /** The inlets whose entry is a fixed value. */
  predicate FixedValueInlet(t: BoundaryType) {
    t in {VelocityInlet, FlowRateInlet, PressureInlet}
  }

  /** The inflow-like types whose entry is an inletOutlet. */
  predicate InletOutletType(t: BoundaryType) {
    t in {OpenChannelInlet, OpenChannelOutlet, FarFieldRiemann, SubsonicInflow, SupersonicInflow}
  }

  /** The dispatch table; no physical type makes this builder fail. */
  function EntryFor(initial: real, t: BoundaryType, c: BoundaryConfig): (e: Entry)
    ensures FixedValueInlet(t) ==> e == FixedValueByModel(c)
    ensures InletOutletType(t) ==> e == InletOutletByModel(initial, c)
    ensures t == PressureOutlet ==> e == PressureOutletEntry(c.calculatedBackflow, InletOutletByModel(initial, c))
    ensures t == AblInlet ==> e == NoEntry
    ensures t in {Outflow, SubsonicOutflow, SupersonicOutflow, Wall, ThermoCoupledWall} ==> e == ZeroGradient
    ensures t == FreeStream ==> e == FreestreamFromStream(c.streamVelocity)
    ensures t == Interface ==> e == InterfaceEntry(c.interfaceMode, ZeroGradient, CyclicAMI)
    ensures t in {PorousJump, Fan, Cyclic} ==> e == CyclicEntry
    ensures t == Symmetry ==> e == SymmetryEntry
    ensures t == Empty ==> e == EmptyEntry
    ensures t == Wedge ==> e == WedgeEntry
  {
    match t
    case VelocityInlet => FixedValueByModel(c)
    case FlowRateInlet => FixedValueByModel(c)
    case PressureInlet => FixedValueByModel(c)
    case PressureOutlet => PressureOutletEntry(c.calculatedBackflow, InletOutletByModel(initial, c))
    case AblInlet => NoEntry
    case OpenChannelInlet => InletOutletByModel(initial, c)
    case OpenChannelOutlet => InletOutletByModel(initial, c)
    case Outflow => ZeroGradient
    case FreeStream => FreestreamFromStream(c.streamVelocity)
    case FarFieldRiemann => InletOutletByModel(initial, c)
    case SubsonicInflow => InletOutletByModel(initial, c)
    case SubsonicOutflow => ZeroGradient
    case SupersonicInflow => InletOutletByModel(initial, c)
    case SupersonicOutflow => ZeroGradient
    case Wall => ZeroGradient
    case ThermoCoupledWall => ZeroGradient
    case Symmetry => SymmetryEntry
    case Interface => InterfaceEntry(c.interfaceMode, ZeroGradient, CyclicAMI)
    case PorousJump => CyclicEntry
    case Fan => CyclicEntry
    case Empty => EmptyEntry
    case Cyclic => CyclicEntry
    case Wedge => WedgeEntry
  }

  /** One catalogued boundary: only an unregistered type name fails. */
  function BoundaryEntry(initial: real, b: Boundary): (r: Result<Entry, BuildError>)
    ensures r.Failure? <==> ParseBoundaryType(b.physicalType).None?
    ensures r.Failure? ==> r.error == UnregisteredType(b.physicalType)
    ensures ParseBoundaryType(b.physicalType).Some? ==>
      r == Success(EntryFor(initial, ParseBoundaryType(b.physicalType).value, b.config))
  {
    match ParseBoundaryType(b.physicalType)
    case None => Failure(UnregisteredType(b.physicalType))
    case Some(t) => Success(EntryFor(initial, t, b.config))
  }

  function Handler(initial: real): Entries.Handler {
    (b: Boundary) => BoundaryEntry(initial, b)
  }

  /** The gated build once the initial value is known. */
  function BuildAt(model: TurbulenceModel, initial: real, bs: seq<Boundary>): (r: Result<Option<FieldSpec>, BuildError>)
    ensures r == Success(None) <==> model != SpalartAllmaras
    ensures r.Success? && r.value.Some? ==>
      && r.value.value.dimensions == Dimensions
      && r.value.value.internalField == initial
      && BoundaryField(bs, Handler(initial)) == Success(r.value.value.boundaryField)
    ensures r.Failure? <==> model == SpalartAllmaras && exists i :: 0 <= i < |bs| && ParseBoundaryType(bs[i].physicalType).None?
  {
    if model != SpalartAllmaras then Success(None)
    else
      var h := Handler(initial);
      assert forall i :: 0 <= i < |bs| ==> h(bs[i]) == BoundaryEntry(initial, bs[i]);
      match BoundaryField(bs, h)
      case Failure(e) => Failure(e)
      case Success(field) => Success(Some(FieldSpec(Dimensions, initial, field)))
  }

  /**
   * `NuTilda(rname).build()`: the initial value is derived first (so a solid
   * region or a zero density fails whatever the model); then no field unless Spalart-Allmaras
   * is active; otherwise the field at the derived initial value.
   */
  function Build(model: TurbulenceModel, ic: InitialConditions, m: Material, props: PropertyProvider, bs: seq<Boundary>)
    : (r: Result<Option<FieldSpec>, BuildError>)
    ensures InitialNuTilda(ic, m, props).Failure? ==> r == Failure(InitialNuTilda(ic, m, props).error)
    ensures m.phase == Solid ==> r == Failure(UnsupportedPhase)
    ensures InitialNuTilda(ic, m, props).Success? ==> (r == Success(None) <==> model != SpalartAllmaras)
    ensures r.Success? && r.value.Some? ==>
      && r.value.value.dimensions == Dimensions
      && r.value.value.internalField == InitialNuTilda(ic, m, props).value
      && BoundaryField(bs, Handler(r.value.value.internalField)) == Success(r.value.value.boundaryField)
    ensures InitialNuTilda(ic, m, props).Success? && model == SpalartAllmaras ==>
      (r.Failure? <==> exists i :: 0 <= i < |bs| && ParseBoundaryType(bs[i].physicalType).None?)
  {
    var initial := InitialNuTilda(ic, m, props);
    if initial.Failure? then Failure(initial.error)
    else
      var r := BuildAt(model, initial.value, bs);
      assert r.Success? && r.value.Some? ==> r.value.value.internalField == initial.value;
      r
  }

  /** The types that take the specification-dependent inflow handlers. */
  predicate BySpecification(t: BoundaryType, c: BoundaryConfig) {
    FixedValueInlet(t) || InletOutletType(t) || (t == PressureOutlet && c.calculatedBackflow == "true")
  }

  /**
   * The placeholder `{'type': ''}` is kept for the turbulent-viscosity-ratio
   * specification: it appears exactly on the specification-dependent inflow
   * boundaries under that specification, and nowhere else.
   */
  lemma PlaceholderExactly(initial: real, t: BoundaryType, c: BoundaryConfig)
    ensures EntryFor(initial, t, c) == Placeholder <==>
      BySpecification(t, c) && c.spalartAllmaras.specification == TurbulentViscosityRatio
  {
  }

  /**
   * Interface-mode reduction: a region interface gets the thermo-coupled
   * wall's entry (zero gradient), every other mode gets cyclicAMI.
   */
  lemma InterfaceReduction(initial: real, c: BoundaryConfig)
    ensures c.interfaceMode == RegionInterface ==> EntryFor(initial, Interface, c) == EntryFor(initial, ThermoCoupledWall, c)
    ensures c.interfaceMode != RegionInterface ==> EntryFor(initial, Interface, c) == CyclicAMI
  {
  }

  /** The entries a nuTilda field may hold; every inletOutlet falls back to the initial value. */
  predicate ValidNuTildaEntry(initial: real, e: Entry) {
    match e
    case InletOutlet(_, v) => v == initial
    case FixedValue(_) => true
    case ZeroGradient => true
    case FreestreamFromStream(_) => true
    case SymmetryEntry => true
    case EmptyEntry => true
    case WedgeEntry => true
    case CyclicEntry => true
    case CyclicAMI => true
    case Placeholder => true
    case NoEntry => true
    case _ => false
  }

  lemma EntryForValid(initial: real, t: BoundaryType, c: BoundaryConfig)
    ensures ValidNuTildaEntry(initial, EntryFor(initial, t, c))
  {
  }

  /**
   * Every entry of a built nuTilda field is a valid nuTilda entry, and every
   * inletOutlet falls back to exactly the internal field's value.
   */
  lemma BuildEntriesValid(model: TurbulenceModel, initial: real, bs: seq<Boundary>)
    requires BuildAt(model, initial, bs).Success? && BuildAt(model, initial, bs).value.Some?
    ensures forall i :: 0 <= i < |BuildAt(model, initial, bs).value.value.boundaryField| ==>
      ValidNuTildaEntry(BuildAt(model, initial, bs).value.value.internalField,
                        BuildAt(model, initial, bs).value.value.boundaryField[i].1)
  {
    var spec := BuildAt(model, initial, bs).value.value;
    var h := Handler(initial);
    BoundaryFieldFromHandler(bs, h);
    forall i | 0 <= i < |spec.boundaryField| ensures ValidNuTildaEntry(initial, spec.boundaryField[i].1) {
      var j :| 0 <= j < |bs| && bs[j].name == spec.boundaryField[i].0 && h(bs[j]) == Success(spec.boundaryField[i].1);
      EntryForValid(initial, ParseBoundaryType(bs[j].physicalType).value, bs[j].config);
    }
  }
}

=== FILE: omega.dfy ===
/**
 * The `omega` field (k-omega specific dissipation rate): present only under
 * the k-omega turbulence model, uniform at the region's initial omega, with
 * one entry per boundary chosen by physical type and, below that, by the
 * k-omega specification, the backflow flag, the wall velocity condition or
 * the interface mode.
 */
module OmegaField {
  import opened Wrappers
  import opened Dict
  import opened Boundary
  import opened Entries

  const Dimensions: string := "[0 0 -1 0 0 0 0]"

  /** The case-wide atmospheric boundary layer settings. */
  datatype AblConditions = AblConditions(surfaceRoughnessLength: real, minimumZCoordinate: real)

  /**
   * What the builder reads besides a boundary's own settings: the region's
   * initial omega, the atmospheric boundary layer, and the free-stream
   * (k, omega) back-calculation of the shared base class, passed in whole.
   */
  datatype OmegaContext = OmegaContext(
    initialOmega: real,
    abl: AblConditions,
    freeStreamKW: BoundaryConfig -> (real, real))

  /** The inflow-like types that share the by-model inletOutlet handler. */
  predicate InletLike(t: BoundaryType) {
    t in {VelocityInlet, FlowRateInlet, PressureInlet, OpenChannelInlet, OpenChannelOutlet,
          FarFieldRiemann, SubsonicInflow, SupersonicInflow}
  }

  /** The inflow entry the boundary's k-omega specification selects. */
  function InletOutletByModel(ctx: OmegaContext, c: BoundaryConfig): (e: Entry)
    ensures e.InletOutlet? <==> c.kOmega.specification == KAndOmega
    ensures e.ViscosityRatioInletOutletTDR? <==> c.kOmega.specification == IntensityAndViscosityRatio
    ensures e.NoEntry? <==> c.kOmega.specification == UnrecognisedKOmegaSpecification
    ensures e.InletOutlet? ==> e.inletValue == c.kOmega.specificDissipationRate
    ensures e.ViscosityRatioInletOutletTDR? ==> e.turbulentViscosityRatio == c.kOmega.turbulentViscosityRatio
    ensures e.InletOutlet? || e.ViscosityRatioInletOutletTDR? ==> e.value == ctx.initialOmega
  {
    match c.kOmega.specification
    case KAndOmega => InletOutlet(c.kOmega.specificDissipationRate, ctx.initialOmega)
    case IntensityAndViscosityRatio => ViscosityRatioInletOutletTDR(c.kOmega.turbulentViscosityRatio, ctx.initialOmega)
    case UnrecognisedKOmegaSpecification => NoEntry
  }

  /**
   * The blended wall function used on walls and coupled walls: OpenFOAM's
   * omegaWallFunction with tanh blending, starting from the initial omega.
   */
  function BlendedWallFunction(ctx: OmegaContext): (e: Entry)
    ensures SolverType(e) == Some("omegaWallFunction")
    ensures e.blending == "tanh" && e.value == ctx.initialOmega
  {
    OmegaWallFunction("tanh", ctx.initialOmega)
  }

  /** A plain wall: the atmospheric wall function exactly when the wall is atmospheric. */
  function WallOmega(ctx: OmegaContext, c: BoundaryConfig): (e: Entry)
    ensures e.AtmOmegaWallFunction? <==> c.wallVelocity == AtmosphericWall
    ensures e.AtmOmegaWallFunction? ==>
      e.z0 == ctx.abl.surfaceRoughnessLength && e.d == ctx.abl.minimumZCoordinate && e.value == ctx.initialOmega
    ensures !e.AtmOmegaWallFunction? ==> e == BlendedWallFunction(ctx)
  {
    if c.wallVelocity == AtmosphericWall then
      AtmOmegaWallFunction(ctx.abl.surfaceRoughnessLength, ctx.abl.minimumZCoordinate, ctx.initialOmega)
    else BlendedWallFunction(ctx)
  }

  /**
   * A free-stream boundary: the freestream value is the given dissipation
   * rate, or the back-calculated one; an unrecognised specification leaves
   * the value unbound and the build aborts.
   */
  function FreeStreamOmega(ctx: OmegaContext, c: BoundaryConfig, name: string): (r: Result<Entry, BuildError>)
    ensures r.Failure? <==> c.kOmega.specification == UnrecognisedKOmegaSpecification
    ensures c.kOmega.specification == KAndOmega ==> r == Success(Freestream(c.kOmega.specificDissipationRate))
    ensures c.kOmega.specification == IntensityAndViscosityRatio ==> r == Success(Freestream(ctx.freeStreamKW(c).1))
  {
    match c.kOmega.specification
    case KAndOmega => Success(Freestream(c.kOmega.specificDissipationRate))
    case IntensityAndViscosityRatio => Success(Freestream(ctx.freeStreamKW(c).1))
    case UnrecognisedKOmegaSpecification => Failure(UnboundFreeStreamOmega(name))
  }

  /** The dispatch table: the entry of a boundary of physical type `t` with settings `c`. */
  function EntryFor(ctx: OmegaContext, t: BoundaryType, c: BoundaryConfig, name: string): (r: Result<Entry, BuildError>)
    ensures InletLike(t) ==> r == Success(InletOutletByModel(ctx, c))
    ensures t == FreeStream ==> r == FreeStreamOmega(ctx, c, name)
    ensures t == AblInlet ==> r == Success(InletOutlet(c.kOmega.specificDissipationRate, ctx.initialOmega))
    ensures t in {Outflow, SubsonicOutflow, SupersonicOutflow} ==> r == Success(ZeroGradient)
    ensures t == PressureOutlet ==> r == Success(PressureOutletEntry(c.calculatedBackflow, InletOutletByModel(ctx, c)))
    ensures t == Wall ==> r == Success(WallOmega(ctx, c))
    ensures t == ThermoCoupledWall ==> r == Success(BlendedWallFunction(ctx))
    ensures t == Interface ==> r == Success(InterfaceEntry(c.interfaceMode, BlendedWallFunction(ctx), CyclicAMI))
    ensures t in {PorousJump, Fan, Cyclic} ==> r == Success(CyclicEntry)
    ensures t == Symmetry ==> r == Success(SymmetryEntry)
    ensures t == Empty ==> r == Success(EmptyEntry)
    ensures t == Wedge ==> r == Success(WedgeEntry)
    ensures r.Failure? <==> t == FreeStream && c.kOmega.specification == UnrecognisedKOmegaSpecification
  {
    match t
    case VelocityInlet => Success(InletOutletByModel(ctx, c))
    case FlowRateInlet => Success(InletOutletByModel(ctx, c))
    case PressureInlet => Success(InletOutletByModel(ctx, c))
    case PressureOutlet => Success(PressureOutletEntry(c.calculatedBackflow, InletOutletByModel(ctx, c)))
    case AblInlet => Success(InletOutlet(c.kOmega.specificDissipationRate, ctx.initialOmega))
    case OpenChannelInlet => Success(InletOutletByModel(ctx, c))
    case OpenChannelOutlet => Success(InletOutletByModel(ctx, c))
    case Outflow => Success(ZeroGradient)
    case FreeStream => FreeStreamOmega(ctx, c, name)
    case FarFieldRiemann => Success(InletOutletByModel(ctx, c))
    case SubsonicInflow => Success(InletOutletByModel(ctx, c))
    case SubsonicOutflow => Success(ZeroGradient)
    case SupersonicInflow => Success(InletOutletByModel(ctx, c))
    case SupersonicOutflow => Success(ZeroGradient)
    case Wall => Success(WallOmega(ctx, c))
    case ThermoCoupledWall => Success(BlendedWallFunction(ctx))
    case Symmetry => Success(SymmetryEntry)
    case Interface => Success(InterfaceEntry(c.interfaceMode, BlendedWallFunction(ctx), CyclicAMI))
    case PorousJump => Success(CyclicEntry)
    case Fan => Success(CyclicEntry)
    case Empty => Success(EmptyEntry)
    case Cyclic => Success(CyclicEntry)
    case Wedge => Success(WedgeEntry)
  }

  /** The entry of one catalogued boundary: its stored type name is looked up first. */
  function BoundaryEntry(ctx: OmegaContext, b: Boundary): (r: Result<Entry, BuildError>)
    ensures ParseBoundaryType(b.physicalType).None? ==> r == Failure(UnregisteredType(b.physicalType))
    ensures ParseBoundaryType(b.physicalType).Some? ==>
      r == EntryFor(ctx, ParseBoundaryType(b.physicalType).value, b.config, b.name)
    ensures r.Failure? <==>
      ParseBoundaryType(b.physicalType).None?
      || (b.physicalType == TypeName(FreeStream) && b.config.kOmega.specification == UnrecognisedKOmegaSpecification)
  {
    match ParseBoundaryType(b.physicalType)
    case None => Failure(UnregisteredType(b.physicalType))
    case Some(t) =>
      TypeNameInjective(t, FreeStream);
      var r := EntryFor(ctx, t, b.config, b.name);
      assert r.Failure? <==> t == FreeStream && b.config.kOmega.specification == UnrecognisedKOmegaSpecification;
      r
  }

  function Handler(ctx: OmegaContext): Entries.Handler {
    (b: Boundary) => BoundaryEntry(ctx, b)
  }

  /**
   * `Omega.build`: no field unless k-omega is the active model; otherwise the
   * field with the omega dimensions, the initial omega as internal field and
   * the per-boundary entries, or the first boundary's error.
   */
  function Build(model: TurbulenceModel, ctx: OmegaContext, bs: seq<Boundary>): (r: Result<Option<FieldSpec>, BuildError>)
    ensures r == Success(None) <==> model != KOmega
    ensures r.Success? && r.value.Some? ==>
      && r.value.value.dimensions == Dimensions
      && r.value.value.internalField == ctx.initialOmega
      && BoundaryField(bs, Handler(ctx)) == Success(r.value.value.boundaryField)
    ensures r.Failure? <==> model == KOmega && exists i :: 0 <= i < |bs| && BoundaryEntry(ctx, bs[i]).Failure?
  {
    if model != KOmega then Success(None)
    else
      var h := Handler(ctx);
      assert forall i :: 0 <= i < |bs| ==> h(bs[i]) == BoundaryEntry(ctx, bs[i]);
      match BoundaryField(bs, h)
      case Failure(e) => Failure(e)
      case Success(field) => Success(Some(FieldSpec(Dimensions, ctx.initialOmega, field)))
  }

  /**
   * The entries an omega field may hold: the kinds the table can produce,
   * with every initial-value fallback equal to the internal field and the
   * atmospheric wall function carrying the case's roughness and height.
   */
  predicate ValidOmegaEntry(ctx: OmegaContext, e: Entry) {
    match e
    case InletOutlet(_, v) => v == ctx.initialOmega
    case ViscosityRatioInletOutletTDR(_, v) => v == ctx.initialOmega
    case OmegaWallFunction(blending, v) => blending == "tanh" && v == ctx.initialOmega
    case AtmOmegaWallFunction(z0, d, v) =>
      z0 == ctx.abl.surfaceRoughnessLength && d == ctx.abl.minimumZCoordinate && v == ctx.initialOmega
    case Freestream(_) => true
    case ZeroGradient => true
    case SymmetryEntry => true
    case EmptyEntry => true
    case WedgeEntry => true
    case CyclicEntry => true
    case CyclicAMI => true
    case NoEntry => true
    case _ => false
  }

  lemma EntryForValid(ctx: OmegaContext, t: BoundaryType, c: BoundaryConfig, name: string)
    requires EntryFor(ctx, t, c, name).Success?
    ensures ValidOmegaEntry(ctx, EntryFor(ctx, t, c, name).value)
  {
  }

  /**
   * Every entry of a built omega field is a valid omega entry: the field
   * never holds a kind outside its table (no fixedValue, no placeholder), and
   * every fallback value is the internal field's initial omega.
   */
  lemma BuildEntriesValid(model: TurbulenceModel, ctx: OmegaContext, bs: seq<Boundary>)
    requires Build(model, ctx, bs).Success? && Build(model, ctx, bs).value.Some?
    ensures forall i :: 0 <= i < |Build(model, ctx, bs).value.value.boundaryField| ==>
      ValidOmegaEntry(ctx, Build(model, ctx, bs).value.value.boundaryField[i].1)
  {
    var h := Handler(ctx);
    var field := Build(model, ctx, bs).value.value.boundaryField;
    BoundaryFieldFromHandler(bs, h);
    forall i | 0 <= i < |field| ensures ValidOmegaEntry(ctx, field[i].1) {
      var j :| 0 <= j < |bs| && bs[j].name == field[i].0 && h(bs[j]) == Success(field[i].1);
      var t := ParseBoundaryType(bs[j].physicalType).value;
      EntryForValid(ctx, t, bs[j].config, bs[j].name);
    }
  }

  /**
   * Interface-mode reduction: a region interface gets exactly the
   * thermo-coupled wall's entry, every other mode gets cyclicAMI.
   */
  lemma InterfaceReduction(ctx: OmegaContext, c: BoundaryConfig, name: string)
    ensures c.interfaceMode == RegionInterface ==>
      EntryFor(ctx, Interface, c, name) == EntryFor(ctx, ThermoCoupledWall, c, name)
    ensures c.interfaceMode != RegionInterface ==> EntryFor(ctx, Interface, c, name) == Success(CyclicAMI)
  {
  }

  /** The ABL inlet ignores the specification method: it is the k-and-omega entry whatever is stored. */
  lemma AblInletIgnoresSpecification(ctx: OmegaContext, c: BoundaryConfig, s: KOmegaSpecification, name: string)
    ensures EntryFor(ctx, AblInlet, c, name)
      == EntryFor(ctx, VelocityInlet, c.(kOmega := c.kOmega.(specification := KAndOmega)), name)
    ensures EntryFor(ctx, AblInlet, c, name)
      == EntryFor(ctx, AblInlet, c.(kOmega := c.kOmega.(specification := s)), name)
  {
  }
}

=== FILE: temperature.dfy ===
/**
 * The temperature field `T`, as its unit tests state it: uniform at the
 * initial temperature, and per boundary an entry chosen first by the
 * temperature profile and, for a constant profile, by physical type.
 */
module TemperatureField {
  import opened Wrappers
  import opened Dict
  import opened Boundary
  import opened Entries
  import opened Text

  const Dimensions: string := "[0 0 0 1 0 0 0]"

  /** The thermal conductivity method of a coupled baffle: the solid's own for a solid region. */
  function KappaMethod(phase: Phase): (k: string)
    ensures k == "solidThermo" <==> phase == Solid
    ensures k == "fluidThermo" <==> phase != Solid
  {
    if phase == Solid then "solidThermo" else "fluidThermo"
  }

  /** The coupled-wall entry of a region with the given phase. */
  function CoupledWall(phase: Phase): Entry {
    CoupledBaffleMixed(KappaMethod(phase))
  }

  /** The total-temperature inletOutlet at the constant temperature. */
  function TotalTemperature(c: BoundaryConfig): Entry {
    InletOutletTotalTemperature(c.temperature.constant, c.temperature.constant)
  }

  /** The first column of a table. */
  function Firsts(table: seq<(string, string)>): (col: seq<string>)
    ensures |col| == |table|
  {
    if |table| == 0 then [] else [table[0].0] + Firsts(table[1..])
  }

  /** The second column of a table. */
  function Seconds(table: seq<(string, string)>): (col: seq<string>)
    ensures |col| == |table|
  {
    if |table| == 0 then [] else [table[0].1] + Seconds(table[1..])
  }

  /**
   * The piecewise-linear table `[[t[i], v[i]] for i in range(len(t))]`, or
   * `None` when there are fewer values than times (the index error).
   */
  function PiecewiseLinearTable(ts: seq<string>, vs: seq<string>): (r: Option<seq<(string, string)>>)
    ensures r.Some? <==> |ts| <= |vs|
  {
    if |vs| < |ts| then None
    else Some(seq(|ts|, i requires 0 <= i < |ts| => (ts[i], vs[i])))
  }

  /**
   * The table pairs time with value: its time column is the time list, and
   * its value column is the value list cut to the number of times.
   */
  lemma {:induction false} PiecewiseLinearColumns(ts: seq<string>, vs: seq<string>)
    requires |ts| <= |vs|
    ensures Firsts(PiecewiseLinearTable(ts, vs).value) == ts
    ensures Seconds(PiecewiseLinearTable(ts, vs).value) == vs[..|ts|]
    decreases |ts|
  {
    if |ts| > 0 {
      var table := PiecewiseLinearTable(ts, vs).value;
      PiecewiseLinearColumns(ts[1..], vs[1..]);
      assert table[1..] == PiecewiseLinearTable(ts[1..], vs[1..]).value;
      assert ts == [ts[0]] + ts[1..];
      assert vs[..|ts|] == [vs[0]] + vs[1..][..|ts| - 1];
    }
  }

  /** The polynomial coefficient name `f'a{i}'`. */
  function CoefficientName(i: nat): string {
    "a" + NatToDecimal(i)
  }

  /** The polynomial table `[[f'a{i}', v[i]] for i in range(len(v))]`. */
  function PolynomialTable(vs: seq<string>): (table: seq<(string, string)>)
    ensures |table| == |vs|
    ensures forall i :: 0 <= i < |vs| ==> table[i] == (CoefficientName(i), vs[i])
  {
    seq(|vs|, i requires 0 <= i < |vs| => (CoefficientName(i), vs[i]))
  }

  /** Distinct coefficients get distinct names, so no row of the polynomial table shadows another. */
  lemma PolynomialNamesDistinct(vs: seq<string>)
    ensures forall i, j :: 0 <= i < j < |vs| ==> PolynomialTable(vs)[i].0 != PolynomialTable(vs)[j].0
    ensures Seconds(PolynomialTable(vs)) == vs
  {
    var table := PolynomialTable(vs);
    forall i, j | 0 <= i < j < |vs| ensures table[i].0 != table[j].0 {
      if table[i].0 == table[j].0 {
        assert table[i].0[1..] == NatToDecimal(i);
        assert table[j].0[1..] == NatToDecimal(j);
        NatToDecimalInjective(i, j);
      }
    }
    SecondsOfPolynomial(vs, 0);
  }

  lemma {:induction false} SecondsOfPolynomial(vs: seq<string>, k: nat)
    requires k <= |vs|
    ensures Seconds(PolynomialTable(vs)[k..]) == vs[k..]
    decreases |vs| - k
  {
    if k < |vs| {
      SecondsOfPolynomial(vs, k + 1);
      assert PolynomialTable(vs)[k..][1..] == PolynomialTable(vs)[k + 1..];
      assert vs[k..] == [vs[k]] + vs[k + 1..];
    }
  }

  /** The entry of a non-constant profile, whatever the physical type. */
  function ProfileEntry(c: BoundaryConfig, name: string): (r: Result<Entry, BuildError>)
    requires c.temperature.profile != Constant
    ensures c.temperature.profile == SpatialDistribution ==> r == Success(TimeVaryingMappedFixedValue)
    ensures r.Failure? <==>
      && c.temperature.profile == TemporalDistribution
      && c.temperature.temporalSpecification == PiecewiseLinear
      && |Split(c.temperature.piecewiseLinearV)| < |Split(c.temperature.piecewiseLinearT)|
    ensures r.Success? && c.temperature.profile == TemporalDistribution ==> r.value.UniformFixedValue?
    ensures c.temperature.profile == TemporalDistribution && c.temperature.temporalSpecification == Polynomial ==>
      r == Success(UniformFixedValue(PolynomialTable(Split(c.temperature.piecewiseLinearV))))
    ensures c.temperature.profile == TemporalDistribution && c.temperature.temporalSpecification == PiecewiseLinear
            && r.Success? ==>
      r.value == UniformFixedValue(
        PiecewiseLinearTable(Split(c.temperature.piecewiseLinearT), Split(c.temperature.piecewiseLinearV)).value)
    ensures r.Failure? ==> r.error == ValueListTooShort(name)
  {
    if c.temperature.profile == SpatialDistribution then Success(TimeVaryingMappedFixedValue)
    else
      var vs := Split(c.temperature.piecewiseLinearV);
      if c.temperature.temporalSpecification == Polynomial then Success(UniformFixedValue(PolynomialTable(vs)))
      else
        var table := PiecewiseLinearTable(Split(c.temperature.piecewiseLinearT), vs);
        if table.None? then
          assert c.temperature.profile == TemporalDistribution;
          assert c.temperature.temporalSpecification == PiecewiseLinear;
          assert |vs| < |Split(c.temperature.piecewiseLinearT)|;
          Failure(ValueListTooShort(name))
        else Success(UniformFixedValue(table.value))
  }

  /**
   * What a temporal profile writes: a polynomial lists every value under the
   * distinct names `a0`, `a1`, ...; a piecewise-linear profile pairs each time
   * with the value at the same position.
   */
  lemma ProfileTableColumns(c: BoundaryConfig, name: string)
    requires c.temperature.profile == TemporalDistribution
    requires ProfileEntry(c, name).Success?
    ensures var table := ProfileEntry(c, name).value.table;
      var ts := Split(c.temperature.piecewiseLinearT);
      var vs := Split(c.temperature.piecewiseLinearV);
      && (c.temperature.temporalSpecification == Polynomial ==>
            && Seconds(table) == vs
            && forall i, j :: 0 <= i < j < |table| ==> table[i].0 != table[j].0)
      && (c.temperature.temporalSpecification == PiecewiseLinear ==>
            && Firsts(table) == ts
            && Seconds(table) == vs[..|ts|])
  {
    var ts := Split(c.temperature.piecewiseLinearT);
    var vs := Split(c.temperature.piecewiseLinearV);
    if c.temperature.temporalSpecification == Polynomial {
      PolynomialNamesDistinct(vs);
    } else {
      PiecewiseLinearColumns(ts, vs);
    }
  }

  /** The dispatch table of a constant-profile boundary of physical type `t`. */
  function ConstantEntry(phase: Phase, t: BoundaryType, c: BoundaryConfig): (r: Result<Entry, BuildError>)
    ensures r.Failure? <==> t == AblInlet || t == OpenChannelInlet || t == OpenChannelOutlet
    ensures t == VelocityInlet || t == SupersonicInflow || (t == FlowRateInlet && c.flowRateSpecification == VolumeFlowRate)
      ==> r == Success(FixedValue(c.temperature.constant))
    ensures t == PressureInlet || (t == FlowRateInlet && c.flowRateSpecification == MassFlowRate)
        || (t == PressureOutlet && c.calculatedBackflow == "true")
      ==> r == Success(InletOutletTotalTemperature(c.temperature.constant, c.temperature.constant))
    ensures t == Outflow || t == SupersonicOutflow || t == Wall || (t == PressureOutlet && c.calculatedBackflow != "true")
      ==> r == Success(ZeroGradient)
    ensures t == ThermoCoupledWall ==> r == Success(CoupledBaffleMixed(KappaMethod(phase)))
    ensures t == Interface ==> r == Success(InterfaceEntry(c.interfaceMode, CoupledWall(phase), CyclicAMI))
    ensures t == FreeStream ==> r == Success(FreestreamFromStream(c.streamVelocity))
    ensures t == FarFieldRiemann ==> r == Success(FarfieldRiemann(
      c.farFieldRiemann.flowDirection, c.farFieldRiemann.machNumber,
      c.farFieldRiemann.staticPressure, c.farFieldRiemann.staticTemperature))
    ensures t == SubsonicInflow ==> r == Success(SubsonicInflowEntry(
      c.subsonicInflow.flowDirection, c.subsonicInflow.totalPressure, c.subsonicInflow.totalTemperature))
    ensures t == SubsonicOutflow ==> r == Success(SubsonicOutflowEntry(c.subsonicOutflowPressure))
    ensures t == PorousJump ==> r == Success(PorousBafflePressure(
      c.porousJump.darcyCoefficient, c.porousJump.inertialCoefficient, c.porousJump.porousMediaThickness))
    ensures t == Fan || t == Cyclic ==> r == Success(CyclicEntry)
    ensures t == Symmetry ==> r == Success(SymmetryEntry)
    ensures t == Empty ==> r == Success(EmptyEntry)
    ensures t == Wedge ==> r == Success(WedgeEntry)
  {
    match t
    case VelocityInlet => Success(FixedValue(c.temperature.constant))
    case FlowRateInlet =>
      if c.flowRateSpecification == VolumeFlowRate then Success(FixedValue(c.temperature.constant))
      else Success(TotalTemperature(c))
    case PressureInlet => Success(TotalTemperature(c))
    case PressureOutlet =>
      if c.calculatedBackflow == "true" then Success(TotalTemperature(c)) else Success(ZeroGradient)
    case AblInlet => Failure(TemperatureNotModelled(t))
    case OpenChannelInlet => Failure(TemperatureNotModelled(t))
    case OpenChannelOutlet => Failure(TemperatureNotModelled(t))
    case Outflow => Success(ZeroGradient)
    case FreeStream => Success(FreestreamFromStream(c.streamVelocity))
    case FarFieldRiemann =>
      Success(FarfieldRiemann(c.farFieldRiemann.flowDirection, c.farFieldRiemann.machNumber,
                              c.farFieldRiemann.staticPressure, c.farFieldRiemann.staticTemperature))
    case SubsonicInflow =>
      Success(SubsonicInflowEntry(c.subsonicInflow.flowDirection, c.subsonicInflow.totalPressure,
                                  c.subsonicInflow.totalTemperature))
    case SubsonicOutflow => Success(SubsonicOutflowEntry(c.subsonicOutflowPressure))
    case SupersonicInflow => Success(FixedValue(c.temperature.constant))
    case SupersonicOutflow => Success(ZeroGradient)
    case Wall => Success(ZeroGradient)
    case ThermoCoupledWall => Success(CoupledWall(phase))
    case Symmetry => Success(SymmetryEntry)
    case Interface => Success(InterfaceEntry(c.interfaceMode, CoupledWall(phase), CyclicAMI))
    case PorousJump =>
      Success(PorousBafflePressure(c.porousJump.darcyCoefficient, c.porousJump.inertialCoefficient,
                                   c.porousJump.porousMediaThickness))
    case Fan => Success(CyclicEntry)
    case Empty => Success(EmptyEntry)
    case Cyclic => Success(CyclicEntry)
    case Wedge => Success(WedgeEntry)
  }

  /**
   * One catalogued boundary: a non-constant profile decides the entry by
   * itself; a constant one dispatches on the looked-up physical type.
   */
  function BoundaryEntry(phase: Phase, b: Boundary): (r: Result<Entry, BuildError>)
    ensures b.config.temperature.profile != Constant ==> r == ProfileEntry(b.config, b.name)
    ensures b.config.temperature.profile == Constant && ParseBoundaryType(b.physicalType).None? ==>
      r == Failure(UnregisteredType(b.physicalType))
    ensures b.config.temperature.profile == Constant && ParseBoundaryType(b.physicalType).Some? ==>
      r == ConstantEntry(phase, ParseBoundaryType(b.physicalType).value, b.config)
  {
    if b.config.temperature.profile != Constant then ProfileEntry(b.config, b.name)
    else
      match ParseBoundaryType(b.physicalType)
      case None => Failure(UnregisteredType(b.physicalType))
      case Some(t) => ConstantEntry(phase, t, b.config)
  }

  function Handler(phase: Phase): Entries.Handler {
    (b: Boundary) => BoundaryEntry(phase, b)
  }

  /** `T(region).build()`: the temperature field at the initial temperature, or the first boundary's error. */
  function Build(phase: Phase, initialTemperature: real, bs: seq<Boundary>): (r: Result<FieldSpec, BuildError>)
    ensures r.Success? ==>
      && r.value.dimensions == Dimensions
      && r.value.internalField == initialTemperature
      && BoundaryField(bs, Handler(phase)) == Success(r.value.boundaryField)
    ensures r.Failure? <==> exists i :: 0 <= i < |bs| && BoundaryEntry(phase, bs[i]).Failure?
  {
    var h := Handler(phase);
    assert forall i :: 0 <= i < |bs| ==> h(bs[i]) == BoundaryEntry(phase, bs[i]);
    match BoundaryField(bs, h)
    case Failure(e) => Failure(e)
    case Success(field) => Success(FieldSpec(Dimensions, initialTemperature, field))
  }

  /**
   * Interface-mode reduction: a region interface gets the thermo-coupled
   * wall's coupled baffle, every other mode gets cyclicAMI.
   */
  lemma InterfaceReduction(phase: Phase, c: BoundaryConfig)
    ensures c.interfaceMode == RegionInterface ==> ConstantEntry(phase, Interface, c) == ConstantEntry(phase, ThermoCoupledWall, c)
    ensures c.interfaceMode != RegionInterface ==> ConstantEntry(phase, Interface, c) == Success(CyclicAMI)
  {
  }

  /** The solver `type` the profile tests expect, whatever the physical type. */
  lemma ProfileSolverTypes(b: Boundary, phase: Phase)
    requires b.config.temperature.profile != Constant
    ensures b.config.temperature.profile == SpatialDistribution ==>
      SolverType(BoundaryEntry(phase, b).value) == Some("timeVaryingMappedFixedValue")
    ensures b.config.temperature.profile == TemporalDistribution && BoundaryEntry(phase, b).Success? ==>
      SolverType(BoundaryEntry(phase, b).value) == Some("uniformFixedValue")
  {
  }

  /**
   * The entries a temperature field may hold: never a placeholder or an empty
   * entry, a total-temperature entry with equal inlet and total values, and
   * every coupled baffle resolving conductivity by the region's phase.
   */
  predicate ValidTemperatureEntry(phase: Phase, e: Entry) {
    match e
    case FixedValue(_) => true
    case InletOutletTotalTemperature(iv, t0) => iv == t0
    case ZeroGradient => true
    case FreestreamFromStream(_) => true
    case FarfieldRiemann(_, _, _, _) => true
    case SubsonicInflowEntry(_, _, _) => true
    case SubsonicOutflowEntry(_) => true
    case CoupledBaffleMixed(k) => k == KappaMethod(phase)
    case PorousBafflePressure(_, _, _) => true
    case TimeVaryingMappedFixedValue => true
    case UniformFixedValue(_) => true
    case SymmetryEntry => true
    case EmptyEntry => true
    case WedgeEntry => true
    case CyclicEntry => true
    case CyclicAMI => true
    case _ => false
  }

  lemma ConstantEntryValid(phase: Phase, t: BoundaryType, c: BoundaryConfig)
    requires ConstantEntry(phase, t, c).Success?
    ensures ValidTemperatureEntry(phase, ConstantEntry(phase, t, c).value)
  {
    if t == Interface {
      InterfaceReduction(phase, c);
    }
  }

  /** Every entry one boundary can receive is a valid temperature entry. */
  lemma BoundaryEntryValid(phase: Phase, b: Boundary)
    requires BoundaryEntry(phase, b).Success?
    ensures ValidTemperatureEntry(phase, BoundaryEntry(phase, b).value)
  {
    if b.config.temperature.profile == Constant {
      ConstantEntryValid(phase, ParseBoundaryType(b.physicalType).value, b.config);
    }
  }

  /** Every entry of a built temperature field is a valid temperature entry for the region's phase. */
  lemma BuildEntriesValid(phase: Phase, initialTemperature: real, bs: seq<Boundary>)
    requires Build(phase, initialTemperature, bs).Success?
    ensures forall i :: 0 <= i < |Build(phase, initialTemperature, bs).value.boundaryField| ==>
      ValidTemperatureEntry(phase, Build(phase, initialTemperature, bs).value.boundaryField[i].1)
  {
    var field := Build(phase, initialTemperature, bs).value.boundaryField;
    var h := Handler(phase);
    BoundaryFieldFromHandler(bs, h);
    forall i | 0 <= i < |field| ensures ValidTemperatureEntry(phase, field[i].1) {
      var j :| 0 <= j < |bs| && bs[j].name == field[i].0 && h(bs[j]) == Success(field[i].1);
      BoundaryEntryValid(phase, bs[j]);
    }
  }
}

=== FILE: text.dfy ===
/**
 * The two pieces of string handling the builders rely on: Python's
 * argument-less `str.split()` (used on space-separated lists held in the
 * configuration) and the decimal rendering of an index inside an f-string.
 */
module Text {

  /**
   * The characters Python's `str.split()` treats as separators, those for
   * which `str.isspace()` holds: the ASCII controls tab to carriage return and
   * file to unit separator, the space, and the Unicode spaces, line and
   * paragraph separators.
   */
  predicate IsSpace(c: char) {
    var n := c as int;
    || n == 0x20 || 0x09 <= n <= 0x0D || 0x1C <= n <= 0x1F
    || n == 0x85 || n == 0xA0 || n == 0x1680 || 0x2000 <= n <= 0x200A
    || n == 0x2028 || n == 0x2029 || n == 0x202F || n == 0x205F || n == 0x3000
  }

  /** No character of `s` is a separator. */
  predicate NoSpace(s: string) {
    forall i :: 0 <= i < |s| ==> !IsSpace(s[i])
  }

  /** Length of the longest separator-free prefix of `s`. */
  function TokenLength(s: string): (n: nat)
    ensures n <= |s|
    ensures NoSpace(s[..n])
    ensures n < |s| ==> IsSpace(s[n])
    ensures |s| > 0 && !IsSpace(s[0]) ==> n > 0
  {
    if |s| == 0 || IsSpace(s[0]) then 0
    else
      var m := TokenLength(s[1..]);
      assert s[..1 + m] == [s[0]] + s[1..][..m];
      1 + m
  }

  /**
   * Python's `s.split()`: the maximal runs of non-separator characters, in
   * order; leading, trailing and repeated separators produce no empty token.
   */
  function Split(s: string): (tokens: seq<string>)
    ensures forall i :: 0 <= i < |tokens| ==> tokens[i] != [] && NoSpace(tokens[i])
    decreases |s|
  {
    if |s| == 0 then []
    else if IsSpace(s[0]) then Split(s[1..])
    else
      var n := TokenLength(s);
      [s[..n]] + Split(s[n..])
  }

  /** `s` with every separator removed: the characters the tokens must cover. */
  function RemoveSpaces(s: string): string {
    if |s| == 0 then []
    else if IsSpace(s[0]) then RemoveSpaces(s[1..])
    else [s[0]] + RemoveSpaces(s[1..])
  }

  /** The tokens written one after another. */
  function Concat(tokens: seq<string>): string {
    if |tokens| == 0 then [] else tokens[0] + Concat(tokens[1..])
  }

  /** The tokens joined by single spaces: `' '.join(tokens)`. */
  function JoinSpaced(tokens: seq<string>): string {
    if |tokens| == 0 then []
    else if |tokens| == 1 then tokens[0]
    else tokens[0] + " " + JoinSpaced(tokens[1..])
  }

  lemma {:induction false} RemoveSpacesAppend(a: string, b: string)
    ensures RemoveSpaces(a + b) == RemoveSpaces(a) + RemoveSpaces(b)
    decreases |a|
  {
    if |a| > 0 {
      assert (a + b)[1..] == a[1..] + b;
      RemoveSpacesAppend(a[1..], b);
    } else {
      assert a + b == b;
    }
  }

  lemma {:induction false} RemoveSpacesOfToken(a: string)
    requires NoSpace(a)
    ensures RemoveSpaces(a) == a
    decreases |a|
  {
    if |a| > 0 {
      RemoveSpacesOfToken(a[1..]);
      assert a == [a[0]] + a[1..];
    }
  }

  /** Splitting loses nothing but separators: the tokens cover every other character, in order. */
  lemma {:induction false} SplitKeepsContent(s: string)
    ensures Concat(Split(s)) == RemoveSpaces(s)
    decreases |s|
  {
    if |s| == 0 {
    } else if IsSpace(s[0]) {
      SplitKeepsContent(s[1..]);
    } else {
      var n := TokenLength(s);
      var rest := Split(s[n..]);
      assert ([s[..n]] + rest)[1..] == rest;
      SplitKeepsContent(s[n..]);
      assert s == s[..n] + s[n..];
      RemoveSpacesAppend(s[..n], s[n..]);
      RemoveSpacesOfToken(s[..n]);
    }
  }

  lemma {:induction false} TokenLengthOfJoin(t: string, rest: string)
    requires NoSpace(t)
    requires rest == [] || IsSpace(rest[0])
    ensures TokenLength(t + rest) == |t|
    decreases |t|
  {
    if |t| > 0 {
      assert (t + rest)[1..] == t[1..] + rest;
      TokenLengthOfJoin(t[1..], rest);
    } else {
      assert t + rest == rest;
    }
  }

  /** Joining non-empty separator-free tokens with spaces and splitting again gives the tokens back. */
  lemma {:induction false} SplitJoinRoundTrip(tokens: seq<string>)
    requires forall i :: 0 <= i < |tokens| ==> tokens[i] != [] && NoSpace(tokens[i])
    ensures Split(JoinSpaced(tokens)) == tokens
    decreases |tokens|
  {
    if |tokens| == 1 {
      var s := tokens[0];
      TokenLengthOfJoin(s, []);
      assert s + [] == s;
      assert s[..|s|] == s;
      assert s[|s|..] == [];
    } else if |tokens| > 1 {
      var t := tokens[0];
      var tail := JoinSpaced(tokens[1..]);
      var s := t + " " + tail;
      assert s == t + (" " + tail);
      TokenLengthOfJoin(t, " " + tail);
      assert s[..|t|] == t;
      assert s[|t|..] == " " + tail;
      assert (" " + tail)[1..] == tail;
      SplitJoinRoundTrip(tokens[1..]);
      assert tokens == [t] + tokens[1..];
    }
  }

  /** Every character of `s` is a separator. */
  predicate AllSpace(s: string) {
    forall i :: 0 <= i < |s| ==> IsSpace(s[i])
  }

  /** What `split()` may return: non-empty tokens without separators. */
  predicate Tokens(tokens: seq<string>) {
    forall i :: 0 <= i < |tokens| ==> tokens[i] != [] && NoSpace(tokens[i])
  }

  /**
   * `seps` can surround `tokens`: one run of separators before, between and
   * after the tokens, where the runs between two tokens are not empty.
   */
  predicate Separates(seps: seq<string>, tokens: seq<string>) {
    && |seps| == |tokens| + 1
    && (forall i :: 0 <= i < |seps| ==> AllSpace(seps[i]))
    && (forall i :: 0 < i < |tokens| ==> seps[i] != [])
  }

  /** The text `seps[0] + tokens[0] + seps[1] + ... + tokens[n-1] + seps[n]`. */
  function Layout(seps: seq<string>, tokens: seq<string>): string
    requires |seps| == |tokens| + 1
    decreases |tokens|
  {
    if |tokens| == 0 then seps[0] else seps[0] + tokens[0] + Layout(seps[1..], tokens[1..])
  }

  /** Leading separators are skipped. */
  lemma {:induction false} SplitSkipsSpaces(a: string, rest: string)
    requires AllSpace(a)
    ensures Split(a + rest) == Split(rest)
    decreases |a|
  {
    if |a| > 0 {
      assert (a + rest)[1..] == a[1..] + rest;
      SplitSkipsSpaces(a[1..], rest);
    } else {
      assert a + rest == rest;
    }
  }

  /** A token followed by nothing or by a separator is split off whole. */
  lemma SplitOfTokenThen(t: string, rest: string)
    requires t != [] && NoSpace(t)
    requires rest == [] || IsSpace(rest[0])
    ensures Split(t + rest) == [t] + Split(rest)
  {
    TokenLengthOfJoin(t, rest);
    assert (t + rest)[..|t|] == t;
    assert (t + rest)[|t|..] == rest;
  }

  /** A layout whose first run is not empty, or that has no token, starts with a separator if at all. */
  lemma LayoutHead(seps: seq<string>, tokens: seq<string>)
    requires |seps| == |tokens| + 1 && AllSpace(seps[0])
    requires seps[0] != [] || tokens == []
    ensures Layout(seps, tokens) == [] || IsSpace(Layout(seps, tokens)[0])
  {
    if seps[0] != [] && |tokens| > 0 {
      assert Layout(seps, tokens)[0] == seps[0][0];
    }
  }

  /**
   * Runs of separators of any length and kind count as one separator, and
   * separators at either end are ignored: whatever runs surround the tokens,
   * `split()` gives the tokens back.
   */
  lemma {:induction false} SplitOfLayout(seps: seq<string>, tokens: seq<string>)
    requires Tokens(tokens) && Separates(seps, tokens)
    ensures Split(Layout(seps, tokens)) == tokens
    decreases |tokens|
  {
    if |tokens| == 0 {
      SplitSkipsSpaces(seps[0], []);
      assert seps[0] + [] == seps[0];
    } else {
      var t := tokens[0];
      var rest := Layout(seps[1..], tokens[1..]);
      assert Layout(seps, tokens) == seps[0] + (t + rest);
      SplitSkipsSpaces(seps[0], t + rest);
      LayoutHead(seps[1..], tokens[1..]);
      SplitOfTokenThen(t, rest);
      assert Tokens(tokens[1..]) && Separates(seps[1..], tokens[1..]) by {
        assert forall i :: 0 < i < |tokens| - 1 ==> seps[1..][i] == seps[i + 1];
      }
      SplitOfLayout(seps[1..], tokens[1..]);
      assert tokens == [t] + tokens[1..];
    }
  }

  /** A separator put in front of the first run is put in front of the layout. */
  lemma LayoutPrefixSpace(c: char, r: seq<string>, tokens: seq<string>)
    requires |r| == |tokens| + 1
    ensures Layout([[c] + r[0]] + r[1..], tokens) == [c] + Layout(r, tokens)
  {
    var seps := [[c] + r[0]] + r[1..];
    if |tokens| > 0 {
      assert seps[1..] == r[1..];
    }
  }

  /** A token with no separator before it starts the layout. */
  lemma LayoutPrefixToken(t: string, r: seq<string>, tokens: seq<string>)
    requires |r| == |tokens| + 1
    ensures Layout([[]] + r, [t] + tokens) == t + Layout(r, tokens)
  {
    var seps: seq<string> := [[]] + r;
    var ts := [t] + tokens;
    assert seps[1..] == r && ts[1..] == tokens;
    var tail := Layout(r, tokens);
    assert Layout(seps, ts) == seps[0] + ts[0] + tail;
    assert seps[0] + ts[0] + tail == t + tail;
  }

  /** A separator put in front of the first run keeps the runs well formed. */
  lemma SeparatesPrefixSpace(c: char, r: seq<string>, tokens: seq<string>)
    requires IsSpace(c) && Separates(r, tokens)
    ensures Separates([[c] + r[0]] + r[1..], tokens)
  {
    var seps := [[c] + r[0]] + r[1..];
    assert forall i :: 0 < i < |seps| ==> seps[i] == r[i];
  }

  /** A token put in front, with no run before it, keeps the runs well formed. */
  lemma SeparatesPrefixToken(r: seq<string>, t: string, tokens: seq<string>)
    requires Separates(r, tokens) && (tokens == [] || r[0] != [])
    ensures Separates([[]] + r, [t] + tokens)
  {
    var seps: seq<string> := [[]] + r;
    assert forall i :: 0 < i < |seps| ==> seps[i] == r[i - 1];
  }

  /** The separator runs of `s` around its tokens, so that `s` is their layout. */
  function Separators(s: string): (seps: seq<string>)
    ensures Separates(seps, Split(s))
    ensures Layout(seps, Split(s)) == s
    ensures |s| > 0 && IsSpace(s[0]) ==> seps[0] != []
    decreases |s|
  {
    if |s| == 0 then [[]]
    else if IsSpace(s[0]) then
      var r := Separators(s[1..]);
      var tokens := Split(s[1..]);
      assert Split(s) == tokens;
      LayoutPrefixSpace(s[0], r, tokens);
      SeparatesPrefixSpace(s[0], r, tokens);
      assert s == [s[0]] + s[1..];
      [[s[0]] + r[0]] + r[1..]
    else
      var n := TokenLength(s);
      var r := Separators(s[n..]);
      var tokens := Split(s[n..]);
      assert Split(s) == [s[..n]] + tokens;
      LayoutPrefixToken(s[..n], r, tokens);
      SeparatesPrefixToken(r, s[..n], tokens);
      assert s[..n] + s[n..] == s;
      [[]] + r
  }

  /**
   * `split()` characterised: its result is exactly the tokens of which `s` is
   * a layout, with non-empty separator runs between them.
   */
  lemma SplitCharacterised(s: string, tokens: seq<string>)
    ensures Split(s) == tokens <==>
      Tokens(tokens) && exists seps :: Separates(seps, tokens) && Layout(seps, tokens) == s
  {
    if Split(s) == tokens {
      var seps := Separators(s);
      assert Separates(seps, tokens) && Layout(seps, tokens) == s;
    }
    if Tokens(tokens) && exists seps :: Separates(seps, tokens) && Layout(seps, tokens) == s {
      var seps :| Separates(seps, tokens) && Layout(seps, tokens) == s;
      SplitOfLayout(seps, tokens);
    }
  }

  predicate IsDigit(c: char) {
    '0' <= c <= '9'
  }

  predicate AllDigits(s: string) {
    forall i :: 0 <= i < |s| ==> IsDigit(s[i])
  }

  function DigitChar(d: nat): (c: char)
    requires d < 10
    ensures IsDigit(c) && c as int - '0' as int == d
  {
    ('0' as int + d) as char
  }

  /** The value a string of decimal digits denotes. */
  function DecimalValue(s: string): nat
    requires AllDigits(s)
  {
    if |s| == 0 then 0
    else 10 * DecimalValue(s[..|s| - 1]) + (s[|s| - 1] as int - '0' as int)
  }

  /** Python's `str(n)` for a non-negative integer, as in `f'a{i}'`. */
  function NatToDecimal(n: nat): (s: string)
    ensures s != [] && AllDigits(s)
    ensures |s| > 1 ==> s[0] != '0'
    ensures n > 0 ==> s[0] != '0'
  {
    if n < 10 then [DigitChar(n)] else NatToDecimal(n / 10) + [DigitChar(n % 10)]
  }

  /** Reading back the rendered digits gives the number: the rendering is lossless. */
  lemma {:induction false} DecimalRoundTrip(n: nat)
    ensures DecimalValue(NatToDecimal(n)) == n
  {
    if n >= 10 {
      var s := NatToDecimal(n);
      assert s[..|s| - 1] == NatToDecimal(n / 10);
      DecimalRoundTrip(n / 10);
    }
  }

  /** A digit string without a leading zero denotes a positive number. */
  lemma {:induction false} DecimalPositive(s: string)
    requires s != [] && AllDigits(s) && s[0] != '0'
    ensures DecimalValue(s) > 0
    decreases |s|
  {
    if |s| > 1 {
      DecimalPositive(s[..|s| - 1]);
    }
  }

  /**
   * The rendering is canonical: a digit string without leading zeros is the
   * rendering of the number it denotes, so `str(i)` is the only such string.
   */
  lemma {:induction false} DecimalCanonical(s: string)
    requires s != [] && AllDigits(s) && (|s| > 1 ==> s[0] != '0')
    ensures NatToDecimal(DecimalValue(s)) == s
    decreases |s|
  {
    var last := s[|s| - 1];
    var d := last as int - '0' as int;
    assert DigitChar(d) == last;
    if |s| > 1 {
      var p := s[..|s| - 1];
      DecimalPositive(p);
      DecimalCanonical(p);
      var n := DecimalValue(s);
      assert n / 10 == DecimalValue(p) && n % 10 == d;
      assert s == p + [last];
    }
  }

  /** Distinct numbers render to distinct strings. */
  lemma NatToDecimalInjective(i: nat, j: nat)
    ensures NatToDecimal(i) == NatToDecimal(j) ==> i == j
  {
    DecimalRoundTrip(i);
    DecimalRoundTrip(j);
  }
}

=== FILE: wrappers.dfy ===
/** Option and Result, the wrappers every builder returns. */
module Wrappers {

  /** Some value, or nothing (Python's `None`). */
  datatype Option<+T> = None | Some(value: T)

  /** A value, or the error that aborted the computation (a raised exception). */
  datatype Result<+R, +E> = Success(value: R) | Failure(error: E)
}
